=== FILE: README.md ===
# EV charging-station monitoring: a Dafny model of the core

The application lets station operators file complaints and lets a company
administrator review them, and it shows dashboards of charging-station
statistics. This project models its logic as pure Dafny functions over
immutable values, and proves what that logic promises.

It models two backends:

- the file-backed Express server (`backend/server.js`): the data document
  with its demo-account seeding, demo-token login, and the complaint
  endpoints GET/POST/PATCH/DELETE `/api/complaints`;
- the lowdb server (`backend/index.js`): default-user seeding, login that
  mints a base-64 token, and `/api/me`, which reads the token back.

It also models the React pages:

- the login handler;
- the `PrivateRoute` guard and the route table of `App`;
- the administrator's complaint manager;
- the station dashboard's optimistic complaint form and its report;
- the station list with its search, details modal and map button;
- the company dashboard's normalisation, KPIs, revenue pie and sessions line.

Every handler becomes a function from what it reads (the stored document,
the request, and the clock values passed in as parameters) to what it
writes and answers. Every page action becomes a transition of the page
state, given how its request ended.

The JavaScript the code relies on is written out in Dafny:

- truthiness, `??` and `||`;
- `+` on mixed numbers and strings;
- `Number(...)`, read as an integer parse that yields `NaN` (None) on
  anything else;
- `String(...)`, `trim`, `toLowerCase` on ASCII letters, `includes`,
  `split`, and `replace` with a string pattern;
- base 64 as in section 4 of RFC 4648 (standard alphabet, padded);
- UTF-8 as in RFC 3629.

Modules, one per file:

| file | module | models |
|---|---|---|
| wrappers.dfy | Wrappers | `Option` |
| bytes.dfy | Bytes | the octet type |
| jstext.dfy | JsText | string and number helpers of JavaScript |
| json.dfy | JsValues | JSON values and JavaScript operators on them |
| seqs.dfy | Seqs | `findIndex` and `some` |
| records.dfy | Records | users, complaints, filter/map by id |
| utf8.dfy | Utf8 | `Buffer` UTF-8 |
| base64.dfy | Base64 | `Buffer` base 64 |
| server.dfy | ComplaintServer | backend/server.js |
| authserver.dfy | AuthServer | backend/index.js |
| routing.dfy | Routing | PrivateRoute.js, App.js |
| login.dfy | LoginPage | LoginPage.js |
| admin.dfy | AdminComplaints | AdminComplaints.js |
| report.dfy | CsvReport | the per-station CSV report shared by the station pages |
| stationdash.dfy | StationDashboard | StationDashboard.js |
| stationlist.dfy | StationList | StationListPage.js |
| company.dfy | CompanyDashboard | CompanyDashboard.js |

## Model

| member | source | states |
|---|---|---|
| ComplaintServer.ReadData | backend/server.js:20-27 | An unreadable or unparsable file reads as a document with empty `users` and `complaints`; a parsed file is returned as it is. |
| ComplaintServer.EnsureDataFile | backend/server.js:33-58 | A missing file is created holding exactly stationUser/5678/station (id 1) and companyAdmin/1234/company (id 2), with no complaints. An existing file is rewritten iff a demo username is missing. The rewrite keeps the complaints, and its users are the old users followed by exactly the missing demo accounts (`MissingDemoUsers`), so both usernames are then present. |
| ComplaintServer.MissingDemoUsers | backend/server.js:48-53 | The station account (id now+1) is appended iff no user is called "stationUser", and the company account (id now+2) iff no user is called "companyAdmin"; nothing else is appended, and the station account comes first. |
| ComplaintServer.AppendKeepsUsername | backend/server.js:48-53 | After the missing demo accounts are pushed, both demo usernames are present. |
| ComplaintServer.EnsureDataFileIdempotent | backend/server.js:46-56 | Running the seeding again over the document it wrote writes nothing. |
| ComplaintServer.EnsureDataFileKeepsComplete | backend/server.js:48-50 | A document that already holds both demo usernames is never rewritten. |
| ComplaintServer.FindCredentials | backend/server.js:66 | Finds the first user whose username and password both equal the request's; None iff there is no such user. |
| ComplaintServer.Login | backend/server.js:61-71 | A falsy username or password gives 400. Otherwise the reply is 401 iff no user matches both fields exactly. A 200 carries the first matching user's role and username and the token `demo-token-<id>-<now>`. |
| ComplaintServer.DemoLogins | backend/server.js:36-44 | In a freshly created file the demo credentials log in with their roles, and a wrong password gets 401. |
| ComplaintServer.List | backend/server.js:74-77 | GET answers 200 with the stored complaints, or an empty list when the document has no `complaints` array. |
| ComplaintServer.CreateAsWritten | backend/server.js:79-95 | The handler as written: a falsy name or issue gives 400 and no change. Otherwise, with no `complaints` array, it throws and the document is kept. With one, it answers 201 with the new record and puts that record in front of the old complaints. |
| ComplaintServer.CreateAsWrittenThrows | backend/server.js:92 | POST over a document without `complaints`, as written, throws, although GET reads the same document as an empty list. |
| ComplaintServer.Create | backend/server.js:79-95 | A falsy name or issue gives 400 and changes nothing. Otherwise it gives 201 with a record that has status "Submitted", email "" when absent, and the given id and timestamp. That record is put first and the old complaints follow in order, so the length grows by one. Where `complaints` exists this agrees with the code as written. |
| ComplaintServer.FindById | backend/server.js:98-101 | Finds the first complaint whose id equals `Number(param)` (the `IdMatches` test); None iff none does, including when the parameter is not a number. |
| ComplaintServer.Patch | backend/server.js:97-107 | 404 with the document unchanged iff no complaint's id matches the parameter. A 200 updates exactly the first match, in the document and in the reply. The users are never touched. |
| ComplaintServer.PatchFrame | backend/server.js:101-106 | A successful patch keeps the length and every other record. In the patched record (`Patched`) only `updated_at` (always set) and `status` (replaced only by a truthy status) change. |
| ComplaintServer.Delete | backend/server.js:109-115 | Always 200 success. A complaint survives iff its id differs from `Number(param)`, and the users are untouched. |
| ComplaintServer.DeleteIdempotent | backend/server.js:110-114 | Deleting twice leaves the same document and reply as deleting once. |
| ComplaintServer.DeleteAbsent | backend/server.js:112 | Deleting an id no complaint has leaves the complaints exactly as they were. |
| ComplaintServer.DeleteKeepsOrder | backend/server.js:112 | Deletion distributes over concatenation, so the survivors keep their relative order. |
| ComplaintServer.PatchHead | backend/server.js:101-104 | Patching a list whose head matches updates only the head. |
| ComplaintServer.CreatePatchRoundTrip | backend/server.js:79-107 | Create, then patch the new id to "Accepted": the list shows the new complaint first with only status and `updated_at` changed, followed by the older complaints unchanged. No assumption about the old complaints' ids is needed, because the new record is first. |
| Records.WithoutId | frontend/src/pages/AdminComplaints.js:60 | Keeps exactly the complaints whose id differs, never lengthening the list. |
| Records.WithoutIdAppend | frontend/src/pages/StationDashboard.js:135 | Filtering by id distributes over concatenation (order is kept). |
| Records.WithoutIdIdempotent | frontend/src/pages/AdminComplaints.js:60 | Removing an id twice is removing it once. |
| Records.ReplaceById | frontend/src/pages/AdminComplaints.js:46 | Same length; each entry whose id equals the update's id becomes the update, every other entry is unchanged. |
| Records.ReplaceByIdIdempotent | frontend/src/pages/AdminComplaints.js:46 | Applying the same update twice is applying it once. |
| Records.MarkFailed | frontend/src/pages/StationDashboard.js:138 | Same length; entries with the id get status "Failed", all others are unchanged. |
| AuthServer.SeedUsers | backend/index.js:22-28 | The defaults are installed (and written) iff the list is missing or empty; a non-empty list is kept as it is. |
| AuthServer.SeedUsersIdempotent | backend/index.js:22-28 | A second seeding keeps the list and writes nothing. |
| AuthServer.ReadMintedToken | backend/index.js:43-57 | Decoding a minted token (`MintToken`: UTF-8 then base 64; `ReadToken`: base 64 then UTF-8) gives back the text it was minted from. |
| AuthServer.Login | backend/index.js:31-49 | Unauthorized "Invalid credentials" iff no user has exactly the username and password. Otherwise the first such user answers: the token encodes `<id>:<username>`, and the view holds id, username, role and name and has no password field. |
| AuthServer.Me | backend/index.js:51-69 | No header gives "No auth header". Only the first "Bearer " is removed. The reply succeeds iff the token decodes and some user has both the claimed numeric id and the claimed username. It returns the first such user's full record. |
| AuthServer.ClaimedIdentity | backend/index.js:43-59 | Splitting `<id>:<username>` on ":" and parsing the first field (`Claimed`) gives back the id and the username, when the username has no ':'. |
| AuthServer.LoginThenMe | backend/index.js:43-65 | Round trip: for a username without ':', the login token sent as "Bearer <token>" makes /api/me answer with a user of the same id and username. With unique ids it is the very user who logged in. |
| AuthServer.ColonBreaksRoundTrip | backend/index.js:58-62 | For a username with ':', /api/me never answers with that user. |
| AuthServer.MeRevealsPassword | backend/index.js:31-65 | With unique ids and a username without ':', sending the login token to /api/me returns the very password that was typed, although the login view never holds one. |
| Base64.Encode | backend/index.js:43 | The encoding is 4·⌈n/3⌉ characters long, all drawn from the RFC 4648 alphabet or '='. |
| Base64.Decode | backend/index.js:57 | A successful decoding came from a text whose length is a multiple of 4 matching the decoded length. |
| Base64.DecodeEncode | backend/index.js:43-57 | Decoding an encoding gives the octets back. |
| Base64.EncodeInjective | backend/index.js:43 | Different octet sequences give different tokens. |
| Utf8.Decode | backend/index.js:57 | Whatever decodes successfully re-encodes to exactly the input octets. |
| Utf8.DecodeEncode | backend/index.js:43-57 | Decoding the encoding of a string gives the string back. |
| Utf8.DecodeIff | backend/index.js:57 | Octets decode to a string iff they are that string's encoding. |
| JsText.TrimStart | frontend/src/pages/StationDashboard.js:175 | Removes exactly the leading white space (a suffix of the input with no leading space). |
| JsText.TrimEnd | frontend/src/pages/StationDashboard.js:175 | Removes exactly the trailing white space. |
| JsText.IndexOf | backend/index.js:55 | The first position where the pattern occurs, or None iff it occurs nowhere. |
| JsText.ReplaceFirstOfPrefix | backend/index.js:55 | Replacing the first "Bearer " of "Bearer "+t by "" gives t. |
| JsText.ReplaceFirst | backend/index.js:55 | `replace` with a string pattern: the text is unchanged iff the pattern does not occur; otherwise exactly the first occurrence is replaced by the replacement. |
| JsText.Split | backend/index.js:58 | The fields contain no separator and join back to the input. |
| JsText.SplitJoin | backend/index.js:43-58 | Splitting a join of separator-free fields gives the fields back. |
| JsText.ParseNumber | backend/server.js:98 | Succeeds iff the trimmed text is empty or an optionally signed digit string; blank text is 0. |
| JsText.ParseIntToString | backend/server.js:98-101 | `Number(String(n))` is `n`. |
| JsText.ToLowerIdempotent | frontend/src/pages/StationListPage.js:252 | Lower-casing twice is lower-casing once, and leaves no ASCII capitals. |
| JsValues.Coalesce | frontend/src/pages/CompanyDashboard.js:68 | `a ?? b` is `a` unless `a` is undefined or null. |
| JsValues.OrZero | frontend/src/pages/CompanyDashboard.js:111 | `v \|\| 0` is `v` when truthy, else 0. |
| JsValues.ToNumber | frontend/src/pages/StationDashboard.js:167 | `Number` of null is 0; of undefined, NaN or an object is NaN; of a number is itself; of a string is its parse. |
| JsValues.Add | frontend/src/pages/CompanyDashboard.js:117 | Two numbers add; a string on either side concatenates the texts; NaN results iff no string or object is involved and either side is NaN. |
| Routing.Guard | frontend/src/components/PrivateRoute.js:4-14 | Children iff there is a token and either no required role or an equal role. With no token it always goes to "/". On a mismatch it goes to "/company" for role "company", else "/station". |
| Routing.GuardTokenPresence | frontend/src/components/PrivateRoute.js:5-8 | Only the presence of a token matters, and without one the role is irrelevant. |
| Routing.Landing | frontend/src/App.js:12 | The landing is "/" iff the role is neither "company" nor "station". |
| Routing.RouteFor | frontend/src/App.js:17-31 | "/" is open. "/company" and "/company/complaints" need "company", "/station" needs "station", and every other path is the catch-all. |
| Routing.Resolve | frontend/src/App.js:17-31 | "/" shows the login page. A guarded path shows its page iff there is a token and the role is the required one, and otherwise redirects as the guard does. An unmatched path redirects to the landing with a token, else to "/". |
| Routing.LandingRenders | frontend/src/App.js:12-29 | A known role's landing renders under that role. |
| Routing.KnownRoleSettles | frontend/src/components/PrivateRoute.js:9-11 | For "company" and "station", any path settles after at most one redirect. The page it lands on is the login page or one guarded by the user's own role: no loop. |
| Routing.NoTokenSettles | frontend/src/components/PrivateRoute.js:8 | Without a token every path ends on the login page after at most one redirect. |
| Routing.UnknownRoleLoops | frontend/src/components/PrivateRoute.js:9-11 | Any other role is sent from "/station" to "/station" again, however many redirects are followed. |
| Routing.UnknownRoleCatchAll | frontend/src/App.js:12-31 | Such a holder is sent to "/" from any unmatched path. |
| LoginPage.Stored | frontend/src/pages/LoginPage.js:31-33 | A present field is stored as received; a missing one is stored as the text "undefined". |
| LoginPage.Begin | frontend/src/pages/LoginPage.js:14-15 | The attempt starts with the error cleared and loading on, nothing else touched. |
| LoginPage.HandleLogin | frontend/src/pages/LoginPage.js:12-44 | Loading ends false on every path, and an exception gives the "Server error..." message. A non-ok reply shows the server's truthy `error`, else the default message, and stores nothing. An ok reply clears the error and stores token, role and username as received, leaving other keys alone. It navigates to "/company" iff the role is "company", else "/station". |
| LoginPage.LoginThenRoute | frontend/src/pages/LoginPage.js:31-36 | After an ok login whose token is not the empty text (a missing token is stored as the truthy "undefined"), a known role's target page renders and any other role keeps being redirected. An empty token sends the user back to "/". |
| AdminComplaints.Load | frontend/src/pages/AdminComplaints.js:20-34 | A failure sets the error and keeps the list. Success clears the error and takes an array as the list, any other value as an empty list. Loading ends false. |
| AdminComplaints.LoadMirrorsServer | frontend/src/pages/AdminComplaints.js:20-34 | A successful load of what GET /api/complaints answers shows exactly the stored complaints, and an empty list when the document has no `complaints` array. |
| AdminComplaints.ButtonStatus | frontend/src/pages/AdminComplaints.js:121-141 | The buttons only send "Accepted", "In Progress" or "Declined". |
| AdminComplaints.ButtonStatusInjective | frontend/src/pages/AdminComplaints.js:121-141 | Different buttons send different statuses. |
| AdminComplaints.Saving | frontend/src/pages/AdminComplaints.js:37 | While the PATCH runs, `savingId` is the complaint's id and the list is unchanged. |
| AdminComplaints.UpdateStatus | frontend/src/pages/AdminComplaints.js:36-53 | `savingId` returns to null and the length is kept. A failure keeps the list. A success replaces every entry with the returned id and nothing else. |
| AdminComplaints.DeleteComplaint | frontend/src/pages/AdminComplaints.js:55-65 | A request is sent iff confirmed. Only a confirmed, successful delete changes the list, removing every entry with the id and keeping the order of the rest. |
| AdminComplaints.ReplaceByIdAt | frontend/src/pages/AdminComplaints.js:46 | With distinct ids, replacing by id changes one position only. |
| AdminComplaints.UpdateMirrorsServer | frontend/src/pages/AdminComplaints.js:36-46 | A button's PATCH sets that status on the server. When the page showed the server's list (distinct ids), the page's list afterwards equals the server's. |
| AdminComplaints.DeleteMirrorsServer | frontend/src/pages/AdminComplaints.js:55-60 | After a confirmed, successful delete the page's list equals the server's. |
| StationDashboard.Submit | frontend/src/pages/StationDashboard.js:112-125 | Nothing happens without a name and an issue. Otherwise a "Submitting..." record with the form's fields is put first and the form is reset to all-empty fields. |
| StationDashboard.SubmitSucceeded | frontend/src/pages/StationDashboard.js:135 | The server's record is first. The rest hold exactly the old entries without the temporary id, one per surviving entry; their order is the old order by `Records.WithoutIdAppend` and `SubmitThenSucceed`. |
| StationDashboard.SubmitFailed | frontend/src/pages/StationDashboard.js:138 | Only entries with the temporary id become "Failed"; the length and the other entries are kept. |
| StationDashboard.SubmitThenSucceed | frontend/src/pages/StationDashboard.js:124-135 | Submit then success gives the server's record followed by the old list. |
| StationDashboard.SubmitThenFail | frontend/src/pages/StationDashboard.js:124-138 | Submit then failure gives the temporary record marked "Failed" in front of the old list. |
| StationDashboard.SubmitReachesServer | frontend/src/pages/StationDashboard.js:127-134 | The request the form sends is accepted by the corrected backend handler with the same name, email and issue and status "Submitted". The handler as written gives the same reply iff the document has a `complaints` array, and throws otherwise. |
| StationDashboard.Truncate | frontend/src/pages/StationDashboard.js:442 | Issues up to 60 characters are shown whole; longer ones as their first 60 characters plus "...". |
| StationDashboard.StatusClass | frontend/src/pages/StationDashboard.js:443 | "status-" followed by the status (or ""), one character each. Every character is lower-cased, or "-" where the status has white space. |
| StationDashboard.StatusClassChars | frontend/src/pages/StationDashboard.js:443 | The class is determined character by character by that rule. |
| StationDashboard.InProgressClass | frontend/src/pages/StationDashboard.js:443 | "In Progress" gives "status-in-progress". |
| StationDashboard.FindSummary | frontend/src/pages/StationDashboard.js:167-168 | The first summary whose `Number(station_id)` equals the id; None iff there is none. |
| StationDashboard.LoadStationReport | frontend/src/pages/StationDashboard.js:156-292 | Loading ends false. A failed summaries fetch shows the error and nothing else. A found summary stays even if the CSV then fails. A loaded CSV is charted row for row from its series: the extremes are the values at the first minimum and maximum, and those points have radius 7, all others 3. |
| CsvReport.FindIndexJs | frontend/src/pages/StationDashboard.js:177 | `findIndex`: the first satisfying position, -1 iff none. |
| CsvReport.Rows | frontend/src/pages/StationDashboard.js:175 | One row per line of the trimmed text, each a non-empty list of comma-free cells that join back to its line. |
| CsvReport.Header | frontend/src/pages/StationDashboard.js:176 | The first row's cells, each trimmed and lower-cased. |
| CsvReport.DateColumn | frontend/src/pages/StationDashboard.js:177 | The first header equal to "date", or -1 iff none is. |
| CsvReport.SessionsColumnOf | frontend/src/pages/StationDashboard.js:178-181 | The first header containing "charging_sessions", else the first containing "sessions", else -1 (`SessionsColumn` applies it to the header row). |
| CsvReport.SessionsColumnNone | frontend/src/pages/StationDashboard.js:178-181 | There is no sessions column iff no header contains "sessions". |
| CsvReport.RowDate | frontend/src/pages/StationDashboard.js:186 | A missing or empty date cell gives "", otherwise the trimmed cell. |
| CsvReport.RowValue | frontend/src/pages/StationDashboard.js:187-192 | A missing or empty sessions cell, or one that is not a number, gives 0; otherwise its number. |
| CsvReport.SeriesFrom | frontend/src/pages/StationDashboard.js:183-190 | Exactly one label and one value per data row, read by the rules above. |
| CsvReport.SeriesOf | frontend/src/pages/StationDashboard.js:175-190 | The header row is consumed and each later row gives one point: its date cell and its sessions value in the columns found in the header. |
| CsvReport.ListColumnsSame | frontend/src/pages/StationListPage.js:113-119 | The list page's header (`ListHeader`) and its `ListDateColumn` and `ListSessionsColumn` pick the same columns as the station dashboard. |
| CsvReport.ListRowDateSame | frontend/src/pages/StationListPage.js:124 | Without the `-1` test the date reading is still the same. |
| CsvReport.ListSeriesMatchesDashboard | frontend/src/pages/StationListPage.js:112-128 | Both pages chart the same series from the same file: `ListSeriesOf` (via `ListSeriesFrom` and `ListRowDate`) equals `SeriesOf`. |
| CsvReport.MinMax | frontend/src/pages/StationDashboard.js:195-208 | Empty input gives `Infinity`, `-Infinity`, -1, -1. Otherwise the indices are the first positions of the minimum and maximum, and the values are the values there. |
| CsvReport.ConstantFirst | frontend/src/pages/StationListPage.js:133-146 | When all values are equal, the minimum and the maximum are both at position 0. |
| CsvReport.FirstMinUnique | frontend/src/pages/StationListPage.js:137-141 | The first-minimum position is unique. |
| CsvReport.FirstMaxUnique | frontend/src/pages/StationListPage.js:142-145 | The first-maximum position is unique. |
| CsvReport.PointStyles | frontend/src/pages/StationDashboard.js:210-219 | One style per point, plain except at the extremes. The maximum's style wins when the two indices coincide. |
| CsvReport.BuildChart | frontend/src/pages/StationListPage.js:133-225 | (`Charted`) Labels and values are the series. With no points the extremes are `Infinity` and `-Infinity`. Otherwise the reported extremes are the values at the first minimum and maximum, those points get the marked radius, and every other point the plain one. |
| StationList.Source | frontend/src/pages/StationListPage.js:68-93 | A non-empty array prop is used as it is. Otherwise a failed fetch gives the five samples with the error message, null gives [], and an array is used. |
| StationList.ListUsesDashboardStations | frontend/src/pages/StationListPage.js:68-93 | Embedded in the company dashboard, an empty `stations` prop makes the list fetch for itself as if there were no prop. Once the dashboard's stations have loaded (never empty), the list shows exactly them, with no error banner, whatever its own fetch would give. |
| StationList.Keep | frontend/src/pages/StationListPage.js:252 | A station is kept iff its lower-cased name contains the lower-cased query. |
| StationList.Search | frontend/src/pages/StationListPage.js:252 | The filtered list, or a failure iff some name is not a string. |
| StationList.KeepAppend | frontend/src/pages/StationListPage.js:252 | Filtering distributes over concatenation, so the original order is kept. |
| StationList.KeepEmptyQuery | frontend/src/pages/StationListPage.js:252 | An empty query keeps every station. |
| StationList.SearchEmptyKeepsAll | frontend/src/pages/StationListPage.js:252 | An empty search shows the whole list when every name is a string. |
| StationList.Lookup | frontend/src/pages/StationListPage.js:96 | The first station whose `String(station_id)` equals `String(stationId)`; None iff there is none. |
| StationList.LookupOwnId | frontend/src/pages/StationListPage.js:96 | A card's own id always finds a station with an id of the same text. |
| StationList.NumberAndTextSameStation | frontend/src/pages/StationListPage.js:96 | The number n and the text "n" find the same station. |
| StationList.OpenDetails | frontend/src/pages/StationListPage.js:95-232 | The modal opens on the looked-up station and loading ends. A missing CSV gives the chart error and no chart. A loaded CSV is charted from the dashboard's series, with the extremes at the first minimum and maximum, radius 6 there and 2 elsewhere. |
| StationList.DetailsChart | frontend/src/pages/StationListPage.js:112-157 | The modal's chart shows the station dashboard's series; its extremes are the values at the first minimum and maximum, marked with radius 6, and every other point has radius 2. |
| StationList.CloseModal | frontend/src/pages/StationListPage.js:234-243 | Everything the modal showed is cleared, and `onOpenHandled` is called iff given. |
| StationList.CloseAfterOpen | frontend/src/pages/StationListPage.js:234-243 | Closing lands on the same closed state whatever was open, and closing twice is closing once. |
| StationList.ShowOnMap | frontend/src/pages/StationListPage.js:278-284 | Delegates to `onSelectStation` iff given, otherwise opens the station's details. |
| CompanyDashboard.Coordinate | frontend/src/pages/CompanyDashboard.js:70-71 | `lat` if present, else `latitude`, as a number; undefined iff neither key exists. |
| CompanyDashboard.Normalized | frontend/src/pages/CompanyDashboard.js:67-74 | The literal holds the five fixed keys plus the coordinates the summary gives. Id and name go through their `??` chains. The numeric fields are `Number(...) \|\| 0`, with revenue falling back to `revenue_inr`. |
| CompanyDashboard.Normalize | frontend/src/pages/CompanyDashboard.js:67-76 | Because of the trailing spread, every key of the summary keeps its own value. The keys are the summary's plus the literal's. The defaults show only where the summary lacks the key. |
| CompanyDashboard.NormalizeName | frontend/src/pages/CompanyDashboard.js:68-69 | A summary without a name whose `station_id` is the number n is called "Station n". |
| CompanyDashboard.NormalizeNameDefault | frontend/src/pages/CompanyDashboard.js:68-69 | A summary without a name or id at position i is called "Station <100+i>", and gets 100+i as its id when it has no `stationId` either. |
| CompanyDashboard.NormalizeNumeric | frontend/src/pages/CompanyDashboard.js:72-75 | A numeric field comes out as a number iff the summary lacks it or already holds a number there. |
| CompanyDashboard.LoadStations | frontend/src/pages/CompanyDashboard.js:58-84 | The result is never empty. A non-empty array is normalised station by station; anything else, including a failure, gives the five samples. |
| CompanyDashboard.SumIsTotal | frontend/src/pages/CompanyDashboard.js:117-119 | When every field is numeric, the `reduce` with `+` (`Sum`) is the arithmetic total. |
| CompanyDashboard.RoundDiv | frontend/src/pages/CompanyDashboard.js:118-120 | `Math.round(x / n)` is the integer nearest `x / n`, halves rounded up, or NaN when `x` is not a number. |
| CompanyDashboard.ComputeKpis | frontend/src/pages/CompanyDashboard.js:108-122 | With a selection the tiles are its fields with falsy values as 0. Otherwise they are the JavaScript sums and rounded averages, all 0 for no stations. |
| CompanyDashboard.KpisNumeric | frontend/src/pages/CompanyDashboard.js:117-121 | With numeric fields the tiles are the arithmetic totals and correctly rounded averages. |
| CompanyDashboard.StringRevenueConcatenates | frontend/src/pages/CompanyDashboard.js:74-119 | A revenue given as text survives the spread, and the total tile concatenates: "0" followed by the text. |
| CompanyDashboard.Others | frontend/src/pages/CompanyDashboard.js:162 | `Math.max(0, total - sel)` is never negative; it is NaN iff either side is not a number. |
| CompanyDashboard.RevenuePie | frontend/src/pages/CompanyDashboard.js:158-189 | With a selection there are two slices, "Selected: <name>" with its revenue and "Other stations" with `Others(total, that revenue)`, coloured "#06B6D4" and "#2D3748"; the second is never negative. Otherwise there is one slice per station in order, station i coloured `palette[i mod 6]`. |
| CompanyDashboard.PaletteCycle | frontend/src/pages/CompanyDashboard.js:35-177 | Colours repeat every six stations and neighbours never share one. |
| CompanyDashboard.OthersExact | frontend/src/pages/CompanyDashboard.js:160-162 | With numeric, non-negative revenues, the second slice is exactly the revenue of the other stations. |
| CompanyDashboard.CompanyRowValue | frontend/src/pages/CompanyDashboard.js:142 | With no sessions column the value is 0; otherwise it is `Number(cell \|\| 0)` of the cell, a number or NaN. |
| CompanyDashboard.CompanyRowAgrees | frontend/src/pages/CompanyDashboard.js:142 | The value agrees with the station pages' reading where it is a number. It is NaN iff the cell is filled and not a number. |
| CompanyDashboard.Overview | frontend/src/pages/CompanyDashboard.js:150-152 | One label (the name) and one value (`avg_sessions \|\| 0`) per station. |
| CompanyDashboard.StationLine | frontend/src/pages/CompanyDashboard.js:133-144 | The selected station's line has the station pages' dates, and their values wherever a cell is a number (row by row through `LineOf`). |
| CompanyDashboard.LineOf | frontend/src/pages/CompanyDashboard.js:138-143 | Given the columns, one label and one value per data row: the station pages' date, and their number wherever the cell is a number. |
| CompanyDashboard.LoadTimeseries | frontend/src/pages/CompanyDashboard.js:125-156 | A selected station with a truthy id and a readable CSV gets its own line; otherwise the overview. |

## Left out

- File and database I/O, Express routing, `fetch`, `localStorage`, `window.confirm`, `alert`, React state and rendering, Google Maps, Chart.js options, the Power BI embed, Leaflet icons and image probing. Each handler or page action takes what it would have read as a parameter and returns what it would write.
- Clock values (`Date.now()`, ISO timestamps) are parameters; their uniqueness is not modelled.
- Concurrent requests and the read-modify-write race between them: the model is sequential.
- GET `/api/health` and GET `/` of backend/index.js: they reply constants.
- `Number(...)` is modelled only for integers written as optional sign plus digits; fractions, exponents, hexadecimal, "Infinity" and so on read as `NaN`.
- JSON numbers are integers. The sample coordinates are in units of 1e-4 degree.
- Floating-point work is not modelled: averages shown with `toFixed`, `avgVal`, tooltips, `suggestedMin`/`suggestedMax` and the average dataset.
- CompanyDashboard.RoundDiv: `Math.round` of an integer quotient only; quotients of fractional sums are not modelled.
- `toLowerCase` maps only ASCII letters; other scripts are left unchanged.
- StationDashboard.Truncate: counts Unicode scalar values, not UTF-16 code units as JavaScript's `length` does.
- Base64.Decode: only well-formed, padded encodings decode. Node's lenient decoding of other text, and the effectively unreachable "Invalid token format" branch of `/api/me`, are not modelled.
- Utf8.Decode: only well-formed UTF-8 decodes; Node's replacement of malformed octets by U+FFFD is not modelled.
- `loadComplaints` of the station dashboard and its sort (frontend/src/pages/StationDashboard.js:143-154): the comparator subtracts ISO strings, so the order depends on the engine.
- The router matches paths exactly; react-router's case-insensitivity and trailing-slash handling are not modelled.
- StationList.Source: a fetched body that is neither an array nor falsy is not modelled.
- CompanyDashboard.LoadStations: array items that are not objects are not modelled.
- StationDashboard.LoadStationReport: a summaries body that is not an array (where `find` throws) is not modelled.
- `goToStation` and map panning, `openStationDetails`, and the `mounted` flags of the effects.
- A key whose value is `undefined` is the same as a missing key.
- JsValues.ToNumber: arrays are not JSON values of the model; `JObject` is a plain object. An array-valued field such as `avg_sessions: [7]` or `lat: []`, which JavaScript's `Number` and `String` read through its elements (giving 7 and 0), is not modelled.
- The data document of backend/server.js is a JSON object with `users` and `complaints`. A data.json that parses to null (where seeding throws and the server never starts listening), to an array (where the added `users` property is dropped when written back), or to a primitive is not modelled, and neither are other top-level keys, which `writeData` would keep.
- Request bodies and stored records of both backends are typed: name, email, issue, status, username and password are strings, and ids are integers. A non-string body field (such as a PATCH with `{"status": 1}`) or a stored string id (such as "17", which `Number(c.id)` would match) is not modelled.
- The sample stations' KPIs are not computed as concrete numbers.

## Findings

| source | as written | input that shows it | evidently intended | confidence | as-written member | corrected member |
|---|---|---|---|---|---|---|
| backend/server.js:92 | POST /api/complaints calls `data.complaints.unshift(...)` without the `\|\| []` fallback that GET, PATCH and DELETE use (lines 76, 101, 112) | a data.json holding `users` but no `complaints` key: POST with a name and an issue throws a TypeError, and no reply is sent (ComplaintServer.CreateAsWrittenThrows) | treat a missing array as empty, as the other handlers do, and create the complaint | not executed | ComplaintServer.CreateAsWritten | ComplaintServer.Create |

=== FILE: admin.dfy ===
/** The complaint manager of the company dashboard
    (frontend/src/pages/AdminComplaints.js): loading the list, the three
    status buttons and delete, each as a transition of the page state given
    how the request ended. */
module AdminComplaints {
  import opened Wrappers
  import opened Records
  import opened JsText
  import ComplaintServer

  datatype AdminState = AdminState(complaints: seq<Complaint>, loading: bool,
                                   savingId: Option<int>, error: string)

  /** The body of a successful GET: an array of complaints, or some other
      JSON value. */
  datatype Payload = IsArray(items: seq<Complaint>) | NotArray

  const LoadError := "Could not fetch complaints. Is backend running?"

  /** `loadComplaints`; `res` is None when the request failed or answered
      with a non-ok status. */
  function Load(s: AdminState, res: Option<Payload>): (r: AdminState)
    ensures !r.loading && r.savingId == s.savingId
    ensures res.None? ==> r.error == LoadError && r.complaints == s.complaints
    ensures res.Some? ==> r.error == ""
    ensures res == Some(NotArray) ==> r.complaints == []
    ensures res.Some? && res.value.IsArray? ==> r.complaints == res.value.items
  {
    var t := s.(loading := true, error := "");
    var t' :=
      match res
      case None => t.(error := LoadError)
      case Some(p) => t.(complaints := if p.IsArray? then p.items else []);
    t'.(loading := false)
  }

  /** A successful GET /api/complaints shows the server's list as it is,
      and an empty list when the stored document has no `complaints`
      array: the page starts from what the backend holds. */
  lemma LoadMirrorsServer(s: AdminState, store: ComplaintServer.Store)
    ensures Load(s, Some(IsArray(ComplaintServer.List(store).body.complaints))).complaints
            == ComplaintServer.ComplaintsOf(store)
    ensures store.complaints.None? ==>
      Load(s, Some(IsArray(ComplaintServer.List(store).body.complaints))).complaints == []
  {
  }

  /** The three buttons of a complaint card. */
  datatype Button = Accept | Process | Decline

  /** The status each button sends. */
  function ButtonStatus(b: Button): (r: string)
    ensures r in {"Accepted", "In Progress", "Declined"}
    ensures r != ""
  {
    match b
    case Accept => "Accepted"
    case Process => "In Progress"
    case Decline => "Declined"
  }

  /** Different buttons send different statuses. */
  lemma ButtonStatusInjective(a: Button, b: Button)
    ensures ButtonStatus(a) == ButtonStatus(b) ==> a == b
  {
  }

  /** `updateStatus`; `updated` is the record the PATCH answered with, or
      None when it failed (the page then only alerts). */
  function UpdateStatus(s: AdminState, updated: Option<Complaint>): (r: AdminState)
    ensures r.savingId.None?
    ensures |r.complaints| == |s.complaints|
    ensures updated.None? ==> r.complaints == s.complaints
    ensures updated.Some? ==> forall i | 0 <= i < |s.complaints| ::
      r.complaints[i] == (if s.complaints[i].id == updated.value.id then updated.value else s.complaints[i])
    ensures r.loading == s.loading && r.error == s.error
  {
    match updated
    case None => s.(savingId := None)
    case Some(u) => s.(complaints := ReplaceById(s.complaints, u), savingId := None)
  }

  /** The state while the PATCH is in flight: the complaint's buttons are
      disabled. */
  function Saving(s: AdminState, id: int): (r: AdminState)
    ensures r.savingId == Some(id) && r.complaints == s.complaints
  {
    s.(savingId := Some(id))
  }

  /** `deleteComplaint`: `confirmed` is the answer to the confirmation
      dialog, `ok` whether the DELETE succeeded. Also says whether a request
      was sent at all. */
  function DeleteComplaint(s: AdminState, id: int, confirmed: bool, ok: bool): (r: (AdminState, bool))
    ensures r.1 <==> confirmed
    ensures !confirmed || !ok ==> r.0 == s
    ensures confirmed && ok ==> r.0 == s.(complaints := WithoutId(s.complaints, id))
    ensures forall c :: c in r.0.complaints <==> c in s.complaints && (c.id != id || !confirmed || !ok)
  {
    if !confirmed then (s, false)
    else if ok then (s.(complaints := WithoutId(s.complaints, id)), true)
    else (s, true)
  }

  /** Every identifier in the list is different. */
  predicate UniqueIds(cs: seq<Complaint>) {
    forall i, j | 0 <= i < j < |cs| :: cs[i].id != cs[j].id
  }

  /** With distinct ids, replacing by the id of the record at `i` touches
      that position only. */
  lemma ReplaceByIdAt(cs: seq<Complaint>, i: int, u: Complaint)
    requires UniqueIds(cs) && 0 <= i < |cs| && u.id == cs[i].id
    ensures ReplaceById(cs, u) == cs[i := u]
  {
  }

  /** A button press reaches the server as PATCH /api/complaints/<id> with
      that status. When the page shows exactly the server's list, with
      distinct ids, the page's list after the update equals the server's. */
  lemma UpdateMirrorsServer(s: AdminState, users: Option<seq<User>>, i: int, b: Button, now: string)
    requires UniqueIds(s.complaints) && 0 <= i < |s.complaints|
    ensures
      var store := ComplaintServer.Store(users, Some(s.complaints));
      var r := ComplaintServer.Patch(store, IntToString(s.complaints[i].id), Some(ButtonStatus(b)), now);
      && r.1 == ComplaintServer.Reply(200, ComplaintServer.ComplaintBody(r.0.complaints.value[i]))
      && r.0.complaints.value[i].status == ButtonStatus(b)
      && UpdateStatus(s, Some(r.0.complaints.value[i])).complaints == r.0.complaints.value
  {
    var cs := s.complaints;
    var id := cs[i].id;
    var param := IntToString(id);
    ParseIntToString(id);
    assert forall j | 0 <= j < |cs| :: ComplaintServer.IdMatches(cs[j], param) <==> j == i;
    assert ComplaintServer.FindById(cs, param) == Some(i);
    var u := ComplaintServer.Patched(cs[i], Some(ButtonStatus(b)), now);
    ReplaceByIdAt(cs, i, u);
  }

  /** Likewise for delete: the page's list after a confirmed, successful
      delete equals the list the server keeps. */
  lemma DeleteMirrorsServer(s: AdminState, users: Option<seq<User>>, id: int)
    ensures
      var store := ComplaintServer.Store(users, Some(s.complaints));
      var after := ComplaintServer.Delete(store, IntToString(id)).0;
      DeleteComplaint(s, id, true, true).0.complaints == after.complaints.value
  {
    ParseIntToString(id);
  }
}

=== FILE: authserver.dfy ===
/** The lowdb backend (backend/index.js): default-user seeding, login that
    mints a token holding the user's id and username in base 64, and
    GET /api/me, which reads that identity back out of the bearer token and
    looks it up in the live user list. */
module AuthServer {
  import opened Wrappers
  import opened JsText
  import opened Seqs
  import opened Records
  import Bytes
  import Utf8
  import Base64

  /** The users installed when db.json has none. */
  const DefaultUsers: seq<User> := [
    User(1, "companyAdmin", "1234", "company", Some("Company Admin")),
    User(2, "stationUser", "5678", "station", Some("Station User"))
  ]

  /** Start-up seeding: the user list after it, and whether db.json is
      written. Only a missing or empty list is replaced. */
  function SeedUsers(users: Option<seq<User>>): (r: (seq<User>, bool))
    ensures r.1 <==> users.None? || |users.value| == 0
    ensures r.1 ==> r.0 == DefaultUsers
    ensures !r.1 ==> r.0 == users.value
  {
    if users.None? || |users.value| == 0 then (DefaultUsers, true) else (users.value, false)
  }

  /** Seeding twice is seeding once: the second run finds a non-empty list,
      keeps it and writes nothing. */
  lemma SeedUsersIdempotent(users: Option<seq<User>>)
    ensures SeedUsers(Some(SeedUsers(users).0)) == (SeedUsers(users).0, false)
  {
  }

  /** What login sends back about the user: never the password. */
  datatype UserView = UserView(id: int, username: string, role: string, name: Option<string>)

  datatype Reply =
    | LoginOk(token: string, view: UserView)
    | MeOk(user: User)
    | Unauthorized(message: string)

  function Status(r: Reply): int {
    if r.Unauthorized? then 401 else 200
  }

  /** The text inside a token: `${user.id}:${user.username}`. */
  function Identity(u: User): string {
    IntToString(u.id) + ":" + u.username
  }

  /** `Buffer.from(text).toString("base64")`. */
  function MintToken(text: string): string {
    Base64.Encode(Utf8.Encode(text))
  }

  /** `Buffer.from(token, "base64").toString("utf8")`, for well-formed input. */
  function ReadToken(token: string): Option<string> {
    match Base64.Decode(token)
    case None => None
    case Some(bytes) => Utf8.Decode(bytes)
  }

  /** Reading a minted token gives its text back. */
  lemma ReadMintedToken(text: string)
    ensures ReadToken(MintToken(text)) == Some(text)
  {
    Base64.DecodeEncode(Utf8.Encode(text));
    Utf8.DecodeEncode(text);
  }

  predicate CredentialsMatch(u: User, username: Option<string>, password: Option<string>) {
    username == Some(u.username) && password == Some(u.password)
  }

  /** POST /api/login. There is no check for missing fields: a missing
      username or password simply matches no stored user. */
  function Login(users: seq<User>, username: Option<string>, password: Option<string>): (r: Reply)
    ensures r.Unauthorized? <==> forall i | 0 <= i < |users| :: !CredentialsMatch(users[i], username, password)
    ensures r.Unauthorized? ==> r.message == "Invalid credentials"
    ensures r.LoginOk? ==>
      exists i | 0 <= i < |users| ::
        && CredentialsMatch(users[i], username, password)
        && (forall j | 0 <= j < i :: !CredentialsMatch(users[j], username, password))
        && r.token == MintToken(Identity(users[i]))
        && r.view == UserView(users[i].id, users[i].username, users[i].role, users[i].name)
    ensures !r.MeOk?
  {
    match FindIndex(users, (u: User) => CredentialsMatch(u, username, password))
    case None => Unauthorized("Invalid credentials")
    case Some(i) =>
      var u := users[i];
      LoginOk(MintToken(Identity(u)), UserView(u.id, u.username, u.role, u.name))
  }

  /** The identity `/api/me` reads from decoded token text:
      `const [idStr, username] = decoded.split(":")`, then `Number(idStr)`.
      A missing second field is `undefined` (None). */
  function Claimed(text: string): (Option<int>, Option<string>) {
    var fields := Split(text, ':');
    (ParseNumber(fields[0]), if |fields| > 1 then Some(fields[1]) else None)
  }

  /** `u.id === id && u.username === username`; a `NaN` id matches nobody. */
  predicate ClaimMatches(u: User, claim: (Option<int>, Option<string>)) {
    claim.0 == Some(u.id) && claim.1 == Some(u.username)
  }

  /** GET /api/me. The header loses only its first "Bearer "; the token must
      decode, and the claimed id and username must both belong to one user,
      whose full record (password included) is returned. */
  function Me(users: seq<User>, header: Option<string>): (r: Reply)
    ensures !Truthy(header) ==> r == Unauthorized("No auth header")
    ensures Truthy(header) ==>
      (r.MeOk? <==>
        var text := ReadToken(ReplaceFirst(header.value, "Bearer ", ""));
        text.Some? && exists i | 0 <= i < |users| :: ClaimMatches(users[i], Claimed(text.value)))
    ensures r.MeOk? ==>
      var text := ReadToken(ReplaceFirst(header.value, "Bearer ", "")).value;
      exists i | 0 <= i < |users| ::
        && r.user == users[i]
        && ClaimMatches(users[i], Claimed(text))
        && forall j | 0 <= j < i :: !ClaimMatches(users[j], Claimed(text))
    ensures r.Unauthorized? && Truthy(header) ==> r.message == "Invalid token"
    ensures !r.LoginOk?
  {
    if !Truthy(header) then Unauthorized("No auth header")
    else
      var token := ReplaceFirst(header.value, "Bearer ", "");
      match ReadToken(token)
      case None => Unauthorized("Invalid token")
      case Some(text) =>
        var claim := Claimed(text);
        match FindIndex(users, (u: User) => ClaimMatches(u, claim))
        case None => Unauthorized("Invalid token")
        case Some(i) => MeOk(users[i])
  }

  /** The identity in a token minted for `u` reads back as `u`'s id and
      username, provided the username holds no ':'. */
  lemma ClaimedIdentity(u: User)
    requires ':' !in u.username
    ensures Claimed(Identity(u)) == (Some(u.id), Some(u.username))
  {
    var idText := IntToString(u.id);
    assert ':' !in idText by {
      forall k | 0 <= k < |idText| ensures idText[k] != ':' {
      }
    }
    assert Join([idText, u.username], ':') == Identity(u);
    SplitJoin([idText, u.username], ':');
    ParseIntToString(u.id);
  }

  /** Round trip: the token returned by a successful login, sent back as
      "Bearer <token>", makes /api/me answer with a stored user carrying the
      same id and username; if user ids are unique it is the very user who
      logged in. */
  lemma LoginThenMe(users: seq<User>, username: Option<string>, password: Option<string>)
    requires Login(users, username, password).LoginOk?
    requires ':' !in Login(users, username, password).view.username
    ensures
      var r := Login(users, username, password);
      var m := Me(users, Some("Bearer " + r.token));
      && m.MeOk?
      && m.user.id == r.view.id && m.user.username == r.view.username
      && ((forall i, j | 0 <= i < j < |users| :: users[i].id != users[j].id) ==>
            m.user.role == r.view.role && m.user.name == r.view.name && CredentialsMatch(m.user, username, password))
  {
    var r := Login(users, username, password);
    var i :| 0 <= i < |users| && CredentialsMatch(users[i], username, password)
             && r.token == MintToken(Identity(users[i]))
             && r.view == UserView(users[i].id, users[i].username, users[i].role, users[i].name);
    var header := Some("Bearer " + r.token);
    ReplaceFirstOfPrefix("Bearer ", r.token);
    assert ReplaceFirst(header.value, "Bearer ", "") == r.token;
    ReadMintedToken(Identity(users[i]));
    var text := Identity(users[i]);
    assert ReadToken(r.token) == Some(text);
    ClaimedIdentity(users[i]);
    assert ClaimMatches(users[i], Claimed(text));
    var m := Me(users, header);
    assert m.MeOk?;
    var k :| 0 <= k < |users| && m.user == users[k] && ClaimMatches(users[k], Claimed(text));
    assert users[k].id == users[i].id;
    if forall a, b | 0 <= a < b < |users| :: users[a].id != users[b].id {
      assert k == i;
    }
  }

  /** The round trip needs the username to be free of ':'. For a user
      whose name holds one, `split(":")` cuts the name short, so /api/me
      never answers with that user: it refuses the token, or answers with
      some other user whose name is the cut-off piece. */
  lemma ColonBreaksRoundTrip(users: seq<User>, username: Option<string>, password: Option<string>)
    requires Login(users, username, password).LoginOk?
    requires ':' in Login(users, username, password).view.username
    ensures
      var r := Login(users, username, password);
      var m := Me(users, Some("Bearer " + r.token));
      m.MeOk? ==> m.user.username != r.view.username
  {
    var r := Login(users, username, password);
    var i :| 0 <= i < |users| && r.token == MintToken(Identity(users[i]))
             && r.view == UserView(users[i].id, users[i].username, users[i].role, users[i].name);
    var header := Some("Bearer " + r.token);
    ReplaceFirstOfPrefix("Bearer ", r.token);
    assert ReplaceFirst(header.value, "Bearer ", "") == r.token;
    var text := Identity(users[i]);
    ReadMintedToken(text);
    assert ReadToken(r.token) == Some(text);
    var m := Me(users, header);
    if m.MeOk? {
      var k :| 0 <= k < |users| && m.user == users[k] && ClaimMatches(users[k], Claimed(text));
      var fields := Split(text, ':');
      assert |fields| > 1 && users[k].username == fields[1];
      assert ':' !in fields[1];
    }
  }

  /** Login and /api/me show different amounts of the same user: the login
      view has no password field at all, while /api/me, given the token that
      login returned, hands back the stored record with the very password
      that was typed in (user ids unique, no ':' in the username). */
  lemma MeRevealsPassword(users: seq<User>, username: Option<string>, password: Option<string>)
    requires Login(users, username, password).LoginOk?
    requires ':' !in Login(users, username, password).view.username
    requires forall i, j | 0 <= i < j < |users| :: users[i].id != users[j].id
    ensures
      var m := Me(users, Some("Bearer " + Login(users, username, password).token));
      m.MeOk? && Some(m.user.password) == password
  {
    LoginThenMe(users, username, password);
  }
}

=== FILE: base64.dfy ===
/** Base 64 encoding as section 4 of RFC 4648 defines it: the standard
    alphabet `A-Z a-z 0-9 + /`, every three octets become four characters,
    and a final group of one or two octets is padded with `=` to four
    characters. This is what Node's `buffer.toString("base64")` produces. */
module Base64 {
  import opened Wrappers
  import opened Bytes

  /** The character for a 6-bit value (Table 1 of RFC 4648). */
  function Letter(v: int): (c: char)
    requires 0 <= v < 64
  {
    if v < 26 then ('A' as int + v) as char
    else if v < 52 then ('a' as int + (v - 26)) as char
    else if v < 62 then ('0' as int + (v - 52)) as char
    else if v == 62 then '+'
    else '/'
  }

  /** The 6-bit value of an alphabet character, None for any other
      character (the pad `=` included). */
  function LetterValue(c: char): (r: Option<int>)
    ensures r.Some? ==> 0 <= r.value < 64 && Letter(r.value) == c
  {
    if 'A' <= c <= 'Z' then Some(c as int - 'A' as int)
    else if 'a' <= c <= 'z' then Some(c as int - 'a' as int + 26)
    else if '0' <= c <= '9' then Some(c as int - '0' as int + 52)
    else if c == '+' then Some(62)
    else if c == '/' then Some(63)
    else None
  }

  lemma LetterValueOfLetter(v: int)
    requires 0 <= v < 64
    ensures LetterValue(Letter(v)) == Some(v)
  {
  }

  /** A character the encoder can emit. */
  predicate IsEncodedChar(c: char) {
    LetterValue(c).Some? || c == '='
  }

  /** Four characters for three octets. */
  function EncodeGroup(b0: Byte, b1: Byte, b2: Byte): string {
    [Letter(b0 / 4), Letter((b0 % 4) * 16 + b1 / 16), Letter((b1 % 16) * 4 + b2 / 64), Letter(b2 % 64)]
  }

  /** The encoding of an octet sequence. */
  function Encode(bs: seq<Byte>): (r: string)
    ensures |r| == 4 * ((|bs| + 2) / 3)
    ensures forall i | 0 <= i < |r| :: IsEncodedChar(r[i])
    decreases |bs|
  {
    if |bs| == 0 then ""
    else if |bs| == 1 then
      LetterValueOfLetter(bs[0] / 4);
      LetterValueOfLetter((bs[0] % 4) * 16);
      [Letter(bs[0] / 4), Letter((bs[0] % 4) * 16), '=', '=']
    else if |bs| == 2 then
      LetterValueOfLetter(bs[0] / 4);
      LetterValueOfLetter((bs[0] % 4) * 16 + bs[1] / 16);
      LetterValueOfLetter((bs[1] % 16) * 4);
      [Letter(bs[0] / 4), Letter((bs[0] % 4) * 16 + bs[1] / 16), Letter((bs[1] % 16) * 4), '=']
    else
      GroupChars(bs[0], bs[1], bs[2]);
      LengthStep(4 * ((|bs| + 2) / 3), |bs| - 3);
      EncodeGroup(bs[0], bs[1], bs[2]) + Encode(bs[3..])
  }

  /** Every character of a full group is in the alphabet. */
  lemma GroupChars(b0: Byte, b1: Byte, b2: Byte)
    ensures forall i | 0 <= i < 4 :: IsEncodedChar(EncodeGroup(b0, b1, b2)[i])
  {
    LetterValueOfLetter(b0 / 4);
    LetterValueOfLetter((b0 % 4) * 16 + b1 / 16);
    LetterValueOfLetter((b1 % 16) * 4 + b2 / 64);
    LetterValueOfLetter(b2 % 64);
  }

  /** Three octets from four alphabet characters. */
  function DecodeGroup(c0: char, c1: char, c2: char, c3: char): (r: Option<seq<Byte>>)
    ensures r.Some? ==> |r.value| == 3
  {
    match (LetterValue(c0), LetterValue(c1), LetterValue(c2), LetterValue(c3))
    case (Some(v0), Some(v1), Some(v2), Some(v3)) =>
      Some([v0 * 4 + v1 / 16, (v1 % 16) * 16 + v2 / 4, (v2 % 4) * 64 + v3])
    case _ => None
  }

  /** The last group, which may end in one or two pad characters. The bits
      that padding leaves unused are ignored, as Node ignores them. */
  function DecodeLast(c0: char, c1: char, c2: char, c3: char): (r: Option<seq<Byte>>)
    ensures r.Some? ==> 1 <= |r.value| <= 3
  {
    if c2 == '=' && c3 == '=' then
      match (LetterValue(c0), LetterValue(c1))
      case (Some(v0), Some(v1)) => Some([v0 * 4 + v1 / 16])
      case _ => None
    else if c3 == '=' then
      match (LetterValue(c0), LetterValue(c1), LetterValue(c2))
      case (Some(v0), Some(v1), Some(v2)) => Some([v0 * 4 + v1 / 16, (v1 % 16) * 16 + v2 / 4])
      case _ => None
    else
      DecodeGroup(c0, c1, c2, c3)
  }

  /** Decoding of a padded encoding; None for a string whose length is not a
      multiple of four, with a character outside the alphabet, or with
      padding anywhere but at the end. */
  function Decode(s: string): (r: Option<seq<Byte>>)
    ensures r.Some? ==> |s| % 4 == 0
    ensures r.Some? ==> |s| == 4 * ((|r.value| + 2) / 3)
    decreases |s|
  {
    if |s| == 0 then Some([])
    else if |s| < 4 then None
    else if |s| == 4 then
      var last := DecodeLast(s[0], s[1], s[2], s[3]);
      LastLength(last);
      last
    else
      match DecodeGroup(s[0], s[1], s[2], s[3])
      case None => None
      case Some(g) =>
        match Decode(s[4..])
        case None => None
        case Some(rest) =>
          LengthStep(|s|, |rest|);
          Some(g + rest)
  }

  /** A final group of one to three octets takes four characters. */
  lemma LastLength(last: Option<seq<Byte>>)
    requires last.Some? ==> 1 <= |last.value| <= 3
    ensures last.Some? ==> 4 == 4 * ((|last.value| + 2) / 3)
  {
  }

  /** A full group in front adds three octets and four characters. */
  lemma LengthStep(n: int, k: nat)
    requires n - 4 == 4 * ((k + 2) / 3)
    ensures n == 4 * ((3 + k + 2) / 3)
  {
    assert (3 + k + 2) / 3 == 1 + (k + 2) / 3;
  }


  /** The arithmetic of one full group: the four 6-bit values put back
      together give the three octets. */
  lemma GroupRoundTrip(b0: Byte, b1: Byte, b2: Byte, g: string)
    requires g == EncodeGroup(b0, b1, b2)
    ensures |g| == 4 && DecodeGroup(g[0], g[1], g[2], g[3]) == Some([b0, b1, b2])
    ensures g[2] != '=' && g[3] != '='
  {
    var v0, v1, v2, v3 := b0 / 4, (b0 % 4) * 16 + b1 / 16, (b1 % 16) * 4 + b2 / 64, b2 % 64;
    LetterValueOfLetter(v0);
    LetterValueOfLetter(v1);
    LetterValueOfLetter(v2);
    LetterValueOfLetter(v3);
    assert v1 / 16 == b0 % 4 && v1 % 16 == b1 / 16;
    assert v2 / 4 == b1 % 16 && v2 % 4 == b2 / 64;
  }

  /** A final group of one octet, padded with two `=`. */
  lemma OneRoundTrip(b0: Byte)
    ensures Decode(Encode([b0])) == Some([b0])
  {
    var v0, v1 := b0 / 4, (b0 % 4) * 16;
    LetterValueOfLetter(v0);
    LetterValueOfLetter(v1);
    assert v1 / 16 == b0 % 4;
  }

  /** A final group of two octets, padded with one `=`. */
  lemma TwoRoundTrip(b0: Byte, b1: Byte)
    ensures Decode(Encode([b0, b1])) == Some([b0, b1])
  {
    var e := Encode([b0, b1]);
    var v0, v1, v2 := b0 / 4, (b0 % 4) * 16 + b1 / 16, (b1 % 16) * 4;
    LetterValueOfLetter(v0);
    LetterValueOfLetter(v1);
    LetterValueOfLetter(v2);
    assert e == [Letter(v0), Letter(v1), Letter(v2), '='];
    assert e[2] != '=' by { assert LetterValue(e[2]).Some?; }
    assert v0 * 4 + v1 / 16 == b0;
    assert (v1 % 16) * 16 + v2 / 4 == b1;
    assert DecodeLast(e[0], e[1], e[2], e[3]) == Some([b0, b1]);
  }

  /** Encoding three or more octets emits the first group and moves on. */
  lemma EncodeUnfold(bs: seq<Byte>)
    requires |bs| >= 3
    ensures Encode(bs) == EncodeGroup(bs[0], bs[1], bs[2]) + Encode(bs[3..])
  {
  }

  /** Decoding a full group followed by a non-empty tail. */
  lemma DecodeUnfold(g: string, rest: string, x: seq<Byte>, y: seq<Byte>)
    requires |g| == 4 && |rest| > 0
    requires DecodeGroup(g[0], g[1], g[2], g[3]) == Some(x)
    requires Decode(rest) == Some(y)
    ensures Decode(g + rest) == Some(x + y)
  {
    var s := g + rest;
    assert s[4..] == rest;
    assert s[0] == g[0] && s[1] == g[1] && s[2] == g[2] && s[3] == g[3];
  }

  /** Exactly three octets: one unpadded group. */
  lemma ThreeRoundTrip(b0: Byte, b1: Byte, b2: Byte)
    ensures Decode(Encode([b0, b1, b2])) == Some([b0, b1, b2])
  {
    var g := EncodeGroup(b0, b1, b2);
    EncodeUnfold([b0, b1, b2]);
    assert [b0, b1, b2][3..] == [];
    assert Encode([b0, b1, b2]) == g;
    GroupRoundTrip(b0, b1, b2, g);
    assert Decode(g) == DecodeLast(g[0], g[1], g[2], g[3]);
  }

  lemma SplitHead<T>(xs: seq<T>)
    requires |xs| >= 3
    ensures xs == [xs[0], xs[1], xs[2]] + xs[3..]
  {
  }

  /** One full group in front of a non-empty tail that already round-trips. */
  lemma GroupThenRest(bs: seq<Byte>)
    requires |bs| > 3
    requires Decode(Encode(bs[3..])) == Some(bs[3..])
    ensures Decode(Encode(bs)) == Some(bs)
  {
    var head := [bs[0], bs[1], bs[2]];
    SplitHead(bs);
    var g := EncodeGroup(bs[0], bs[1], bs[2]);
    var rest := Encode(bs[3..]);
    EncodeUnfold(bs);
    GroupRoundTrip(bs[0], bs[1], bs[2], g);
    DecodeUnfold(g, rest, head, bs[3..]);
  }

  /** Round trip: decoding an encoding gives the octets back. */
  lemma {:induction false} DecodeEncode(bs: seq<Byte>)
    ensures Decode(Encode(bs)) == Some(bs)
    decreases |bs|
  {
    if |bs| == 1 {
      OneRoundTrip(bs[0]);
      assert bs == [bs[0]];
    } else if |bs| == 2 {
      TwoRoundTrip(bs[0], bs[1]);
      assert bs == [bs[0], bs[1]];
    } else if |bs| == 3 {
      ThreeRoundTrip(bs[0], bs[1], bs[2]);
      assert bs == [bs[0], bs[1], bs[2]];
    } else if |bs| > 3 {
      DecodeEncode(bs[3..]);
      GroupThenRest(bs);
    }
  }

  /** Distinct octet sequences have distinct encodings. */
  lemma EncodeInjective(a: seq<Byte>, b: seq<Byte>)
    requires Encode(a) == Encode(b)
    ensures a == b
  {
    DecodeEncode(a);
    DecodeEncode(b);
  }
}

=== FILE: bytes.dfy ===
/** Octets, as Node's `Buffer` holds them. */
module Bytes {
  type Byte = b: int | 0 <= b < 256
}

=== FILE: company.dfy ===
/** The company dashboard (frontend/src/pages/CompanyDashboard.js): loading
    and normalising the station summaries, the KPI tiles, the revenue pie
    and the sessions line. Everything is computed with JavaScript's own
    operators on JSON values, so a field that holds a string where a number
    was expected flows through `+` as text, as it does in the page. */
module CompanyDashboard {
  import opened Wrappers
  import opened JsText
  import opened JsValues
  import opened CsvReport

  /** A sample station. Coordinates are in units of 1e-4 degree. */
  function Sample(id: int, lat: int, lng: int, sessions: int, voltage: int, revenue: int): Record {
    map["station_id" := JNum(id), "name" := JStr("Station " + IntToString(id)),
        "lat" := JNum(lat), "lng" := JNum(lng), "avg_sessions" := JNum(sessions),
        "avg_voltage" := JNum(voltage), "total_revenue_inr" := JNum(revenue)]
  }

  /** SAMPLE_STATIONS: what the dashboard shows when the summaries cannot be
      used. */
  const SampleStations: seq<Record> := [
    Sample(101, 185204, 738567, 56, 225, 500000),
    Sample(102, 190760, 728777, 55, 228, 497000),
    Sample(103, 173850, 784867, 59, 224, 533000),
    Sample(104, 129716, 775946, 57, 227, 512000),
    Sample(105, 287041, 771025, 57, 226, 517000)
  ]

  /** The six pie colours, cycled. */
  const Palette: seq<string> := ["#00FFC6", "#1EE3CF", "#3DD6D0", "#00B8A9", "#00897B", "#005F56"]

  /** The colour of the `i`-th slice. */
  function PieColor(i: nat): string {
    Palette[i % 6]
  }

  // -------------------------------------------------------- normalisation

  /** `s.lat !== undefined ? Number(s.lat) : s.latitude !== undefined ?
      Number(s.latitude) : undefined`. */
  function Coordinate(s: Record, short: string, long: string): (r: Option<Json>)
    ensures r.Some? <==> short in s || long in s
    ensures short in s ==> r == Some(NumberValue(ToNumber(Get(s, short))))
    ensures short !in s && long in s ==> r == Some(NumberValue(ToNumber(Get(s, long))))
  {
    if short in s then Some(NumberValue(ToNumber(Get(s, short))))
    else if long in s then Some(NumberValue(ToNumber(Get(s, long))))
    else None
  }

  /** Adds `key: v` unless `v` is `undefined`; a key holding `undefined`
      reads the same as a missing key. */
  function WithOptional(r: Record, key: string, v: Option<Json>): Record {
    if v.Some? then r[key := v.value] else r
  }

  /** The id `station_id ?? id ?? stationId ?? 100 + i`. */
  function NormalizedId(s: Record, i: int): Json {
    Coalesce(Coalesce(Coalesce(Get(s, "station_id"), Get(s, "id")), Get(s, "stationId")), Some(JNum(100 + i))).value
  }

  /** The name `name ?? station_name ?? "Station " + (station_id ?? id ?? 100 + i)`. */
  function NormalizedName(s: Record, i: int): Json {
    var shownId := Coalesce(Coalesce(Get(s, "station_id"), Get(s, "id")), Some(JNum(100 + i)));
    Coalesce(Coalesce(Get(s, "name"), Get(s, "station_name")), Some(JStr("Station " + ToText(shownId)))).value
  }

  /** The keys every cleaned station has, whatever the summary held. */
  const FixedKeys: set<string> := {"station_id", "name", "avg_sessions", "avg_voltage", "total_revenue_inr"}

  /** The keys of the object literal built for a summary: the fixed ones,
      and a coordinate when the summary gives it under either name. */
  function LiteralKeys(s: Record): set<string> {
    FixedKeys
      + (if "lat" in s || "latitude" in s then {"lat"} else {})
      + (if "lng" in s || "longitude" in s then {"lng"} else {})
  }

  /** The object literal built for the `i`-th summary, before the spread. */
  function Normalized(s: Record, i: int): (r: Record)
    ensures r.Keys == LiteralKeys(s)
    ensures r["station_id"] == NormalizedId(s, i) && r["name"] == NormalizedName(s, i)
    ensures r["avg_sessions"] == JNum(NumberOrZero(Get(s, "avg_sessions")))
    ensures r["avg_voltage"] == JNum(NumberOrZero(Get(s, "avg_voltage")))
    ensures r["total_revenue_inr"] == JNum(NumberOrZero(Coalesce(Get(s, "total_revenue_inr"), Get(s, "revenue_inr"))))
    ensures "lat" in r ==> Coordinate(s, "lat", "latitude") == Some(r["lat"])
    ensures "lng" in r ==> Coordinate(s, "lng", "longitude") == Some(r["lng"])
  {
    var fields := map[
      "station_id" := NormalizedId(s, i),
      "name" := NormalizedName(s, i),
      "avg_sessions" := JNum(NumberOrZero(Coalesce(Get(s, "avg_sessions"), Get(s, "avg_sessions")))),
      "avg_voltage" := JNum(NumberOrZero(Coalesce(Get(s, "avg_voltage"), Get(s, "avg_voltage")))),
      "total_revenue_inr" := JNum(NumberOrZero(Coalesce(Get(s, "total_revenue_inr"), Get(s, "revenue_inr"))))];
    assert fields.Keys == FixedKeys;
    WithOptional(WithOptional(fields, "lat", Coordinate(s, "lat", "latitude")), "lng", Coordinate(s, "lng", "longitude"))
  }

  /** One cleaned station: the normalised fields, then `...s`, so every key
      the summary has keeps the summary's own value. */
  function Normalize(s: Record, i: int): (r: Record)
    ensures forall k | k in s :: k in r && r[k] == s[k]
    ensures r.Keys == s.Keys + LiteralKeys(s)
    ensures "station_id" !in s ==>
      r["station_id"] == Coalesce(Coalesce(Get(s, "id"), Get(s, "stationId")), Some(JNum(100 + i))).value
    ensures "avg_sessions" !in s ==> r["avg_sessions"] == JNum(0)
    ensures "avg_voltage" !in s ==> r["avg_voltage"] == JNum(0)
    ensures "total_revenue_inr" !in s ==> r["total_revenue_inr"] == JNum(NumberOrZero(Get(s, "revenue_inr")))
    ensures "lat" !in s && "latitude" in s ==> r["lat"] == NumberValue(ToNumber(Get(s, "latitude")))
    ensures "lng" !in s && "longitude" in s ==> r["lng"] == NumberValue(ToNumber(Get(s, "longitude")))
  {
    Normalized(s, i) + s
  }

  /** A summary without `name` or `station_name` is called after its id. */
  lemma NormalizeName(s: Record, i: int, n: int)
    requires "name" !in s && "station_name" !in s
    requires "station_id" in s && s["station_id"] == JNum(n)
    ensures Normalize(s, i)["name"] == JStr("Station " + IntToString(n))
  {
  }

  /** Without a name and without an id (absent or null) the `i`-th summary
      is called "Station <100 + i>", the id it is given. */
  lemma NormalizeNameDefault(s: Record, i: int)
    requires "name" !in s && "station_name" !in s
    requires Get(s, "station_id") in {None, Some(JNull)} && Get(s, "id") in {None, Some(JNull)}
    ensures Normalize(s, i)["name"] == JStr("Station " + IntToString(100 + i))
    ensures "station_id" !in s && Get(s, "stationId") in {None, Some(JNull)} ==>
      Normalize(s, i)["station_id"] == JNum(100 + i)
  {
  }

  /** The three numeric fields come out as numbers exactly when the summary
      lacks them or already holds numbers there. */
  lemma NormalizeNumeric(s: Record, i: int, key: string)
    requires key in {"avg_sessions", "avg_voltage", "total_revenue_inr"}
    ensures Normalize(s, i)[key].JNum? <==> key !in s || s[key].JNum?
  {
  }

  /** How fetching stations_summary.json ended: failed (or threw while
      parsing or mapping), a falsy value, an array, or another value. */
  datatype Summaries = SummariesFailed | SummariesFalsy | SummariesArray(items: seq<Record>) | SummariesOther

  /** The stations the dashboard uses: the cleaned summaries, or the samples
      when there are none or they could not be read. */
  function LoadStations(summaries: Summaries): (r: seq<Record>)
    ensures |r| > 0
    ensures summaries.SummariesArray? && |summaries.items| > 0 ==>
      |r| == |summaries.items| && forall i | 0 <= i < |r| :: r[i] == Normalize(summaries.items[i], i)
    ensures !(summaries.SummariesArray? && |summaries.items| > 0) ==> r == SampleStations
  {
    match summaries
    case SummariesArray(items) =>
      if |items| > 0 then seq(|items|, i requires 0 <= i < |items| => Normalize(items[i], i))
      else SampleStations
    case _ => SampleStations
  }

  // ---------------------------------------------------------------- KPIs

  /** `stations.reduce((s, r) => s + (r[key] || 0), 0)`, with JavaScript's
      `+`. */
  function Sum(stations: seq<Record>, key: string): Json {
    if |stations| == 0 then JNum(0)
    else Add(Sum(stations[..|stations| - 1], key), OrZero(Get(stations[|stations| - 1], key)))
  }

  /** The field as a number, when `r[key] || 0` is one. */
  predicate NumericField(r: Record, key: string) {
    OrZero(Get(r, key)).JNum?
  }

  function FieldValue(r: Record, key: string): int {
    var v := OrZero(Get(r, key));
    if v.JNum? then v.n else 0
  }

  /** The arithmetic total of the field over the stations. */
  function Total(stations: seq<Record>, key: string): int {
    if |stations| == 0 then 0 else FieldValue(stations[0], key) + Total(stations[1..], key)
  }

  lemma {:induction false} TotalAppend(a: seq<Record>, b: seq<Record>, key: string)
    ensures Total(a + b, key) == Total(a, key) + Total(b, key)
  {
    if |a| > 0 {
      assert (a + b)[1..] == a[1..] + b;
      TotalAppend(a[1..], b, key);
    } else {
      assert a + b == b;
    }
  }

  /** When every field is a number the left fold is the arithmetic total. */
  lemma {:induction false} SumIsTotal(stations: seq<Record>, key: string)
    requires forall i | 0 <= i < |stations| :: NumericField(stations[i], key)
    ensures Sum(stations, key) == JNum(Total(stations, key))
  {
    if |stations| > 0 {
      var n := |stations| - 1;
      SumIsTotal(stations[..n], key);
      TotalAppend(stations[..n], [stations[n]], key);
      assert stations[..n] + [stations[n]] == stations;
    }
  }

  /** `Math.round(x / n)`: the division converts `x` to a number, and the
      result is the integer nearest `x / n`, halves rounded up. */
  function RoundDiv(x: Json, n: int): (r: Json)
    requires n > 0
    ensures ToNumber(Some(x)).None? ==> r == JNaN
    ensures ToNumber(Some(x)).Some? ==>
      r.JNum? && 2 * n * r.n - n <= 2 * ToNumber(Some(x)).value < 2 * n * r.n + n
  {
    match ToNumber(Some(x))
    case None => JNaN
    case Some(t) => JNum((2 * t + n) / (2 * n))
  }

  datatype Kpis = Kpis(totalSessions: Json, avgVoltage: Json, totalRevenue: Json, avgSessions: Json)

  /** `computeKPIs`. */
  function ComputeKpis(selected: Option<Record>, stations: seq<Record>): (k: Kpis)
    ensures selected.Some? ==>
      && k.totalSessions == OrZero(Get(selected.value, "avg_sessions"))
      && k.avgSessions == k.totalSessions
      && k.avgVoltage == OrZero(Get(selected.value, "avg_voltage"))
      && k.totalRevenue == OrZero(Get(selected.value, "total_revenue_inr"))
    ensures selected.None? && |stations| == 0 ==> k == Kpis(JNum(0), JNum(0), JNum(0), JNum(0))
    ensures selected.None? && |stations| > 0 ==>
      && k.totalSessions == Sum(stations, "avg_sessions")
      && k.totalRevenue == Sum(stations, "total_revenue_inr")
      && k.avgVoltage == RoundDiv(Sum(stations, "avg_voltage"), |stations|)
      && k.avgSessions == RoundDiv(k.totalSessions, |stations|)
  {
    match selected
    case Some(sel) =>
      var sessions := OrZero(Get(sel, "avg_sessions"));
      Kpis(sessions, OrZero(Get(sel, "avg_voltage")), OrZero(Get(sel, "total_revenue_inr")), sessions)
    case None =>
      var totalSessions := Sum(stations, "avg_sessions");
      var n := |stations|;
      Kpis(totalSessions,
           if n > 0 then RoundDiv(Sum(stations, "avg_voltage"), n) else JNum(0),
           Sum(stations, "total_revenue_inr"),
           if n > 0 then RoundDiv(totalSessions, n) else JNum(0))
  }

  /** With numeric fields the tiles are the arithmetic totals and the
      rounded averages. */
  lemma KpisNumeric(stations: seq<Record>)
    requires |stations| > 0
    requires forall i | 0 <= i < |stations| ::
      NumericField(stations[i], "avg_sessions") && NumericField(stations[i], "avg_voltage")
      && NumericField(stations[i], "total_revenue_inr")
    ensures
      var k := ComputeKpis(None, stations);
      var n := |stations|;
      && k.totalSessions == JNum(Total(stations, "avg_sessions"))
      && k.totalRevenue == JNum(Total(stations, "total_revenue_inr"))
      && k.avgVoltage.JNum?
      && 2 * n * k.avgVoltage.n - n <= 2 * Total(stations, "avg_voltage") < 2 * n * k.avgVoltage.n + n
      && k.avgSessions.JNum?
      && 2 * n * k.avgSessions.n - n <= 2 * Total(stations, "avg_sessions") < 2 * n * k.avgSessions.n + n
  {
    SumIsTotal(stations, "avg_sessions");
    SumIsTotal(stations, "avg_voltage");
    SumIsTotal(stations, "total_revenue_inr");
  }

  /** The trailing spread keeps a summary's own values, so a revenue given
      as a string such as "500" is not turned into a number: the total
      revenue tile becomes the concatenation "0500". */
  lemma StringRevenueConcatenates(s: Record, text: string)
    requires "total_revenue_inr" in s && s["total_revenue_inr"] == JStr(text) && text != ""
    ensures ComputeKpis(None, LoadStations(SummariesArray([s]))).totalRevenue == JStr("0" + text)
  {
    var stations := LoadStations(SummariesArray([s]));
    assert stations == [Normalize(s, 0)];
    SumSingle(Normalize(s, 0), "total_revenue_inr");
    assert Add(JNum(0), JStr(text)) == JStr("0" + text) by {
      assert IntToString(0) == "0";
    }
  }

  lemma SumSingle(r: Record, key: string)
    ensures Sum([r], key) == Add(JNum(0), OrZero(Get(r, key)))
  {
    assert [r][..0] == [];
  }

  // ------------------------------------------------------------ the pie

  /** The pie's labels are the raw `name` values (None is `undefined`). */
  datatype Pie = Pie(labels: seq<Option<Json>>, data: seq<Json>, colors: seq<string>)

  /** `Math.max(0, total - selected)`: `-` converts both to numbers, and
      `Math.max` with `NaN` is `NaN`. */
  function Others(total: Json, sel: Json): (r: Json)
    ensures r.JNum? ==> r.n >= 0
    ensures ToNumber(Some(total)).Some? && ToNumber(Some(sel)).Some? ==>
      r == JNum(if ToNumber(Some(total)).value >= ToNumber(Some(sel)).value
                then ToNumber(Some(total)).value - ToNumber(Some(sel)).value else 0)
    ensures ToNumber(Some(total)).None? || ToNumber(Some(sel)).None? ==> r == JNaN
  {
    match (ToNumber(Some(total)), ToNumber(Some(sel)))
    case (Some(t), Some(v)) => JNum(if t - v > 0 then t - v else 0)
    case _ => JNaN
  }

  /** The revenue pie: the selected station against all the others, or one
      slice per station in the cycled palette. */
  function RevenuePie(selected: Option<Record>, stations: seq<Record>): (p: Pie)
    ensures selected.Some? ==>
      && |p.data| == 2 && |p.labels| == 2
      && p.data[0] == OrZero(Get(selected.value, "total_revenue_inr"))
      && p.data[1] == Others(Sum(stations, "total_revenue_inr"), p.data[0])
      && (p.data[1].JNum? ==> p.data[1].n >= 0)
      && p.colors == ["#06B6D4", "#2D3748"]
      && p.labels[0] == Some(JStr("Selected: " + ToText(Get(selected.value, "name"))))
      && p.labels[1] == Some(JStr("Other stations"))
    ensures selected.None? ==>
      && |p.data| == |p.labels| == |p.colors| == |stations|
      && forall i | 0 <= i < |stations| ::
           && p.data[i] == OrZero(Get(stations[i], "total_revenue_inr"))
           && p.labels[i] == Get(stations[i], "name")
           && p.colors[i] == PieColor(i)
  {
    match selected
    case Some(sel) =>
      var selRev := OrZero(Get(sel, "total_revenue_inr"));
      Pie([Some(JStr("Selected: " + ToText(Get(sel, "name")))), Some(JStr("Other stations"))],
          [selRev, Others(Sum(stations, "total_revenue_inr"), selRev)],
          ["#06B6D4", "#2D3748"])
    case None =>
      Pie(seq(|stations|, i requires 0 <= i < |stations| => Get(stations[i], "name")),
          seq(|stations|, i requires 0 <= i < |stations| => OrZero(Get(stations[i], "total_revenue_inr"))),
          seq(|stations|, i requires 0 <= i < |stations| => PieColor(i)))
  }

  /** Colours repeat every six stations, and neighbours never share one. */
  lemma PaletteCycle(i: nat)
    ensures PieColor(i + 6) == PieColor(i)
    ensures PieColor(i) != PieColor(i + 1)
  {
    assert (i + 6) % 6 == i % 6;
    var k := i % 6;
    assert (i + 1) % 6 == (k + 1) % 6;
    if k == 5 {
      assert PieColor(i) == Palette[5] && PieColor(i + 1) == Palette[0];
      assert Palette[5][3] != Palette[0][3];
    } else {
      assert PieColor(i) == Palette[k] && PieColor(i + 1) == Palette[k + 1];
      assert Palette[k][1] != Palette[k + 1][1] || Palette[k][3] != Palette[k + 1][3];
    }
  }

  /** Removing one station's field from the total leaves the total of the
      others. */
  lemma TotalWithout(stations: seq<Record>, k: int, key: string)
    requires 0 <= k < |stations|
    ensures Total(stations, key) == Total(stations[..k], key) + FieldValue(stations[k], key) + Total(stations[k + 1..], key)
  {
    assert stations == stations[..k] + ([stations[k]] + stations[k + 1..]);
    TotalAppend(stations[..k], [stations[k]] + stations[k + 1..], key);
    TotalAppend([stations[k]], stations[k + 1..], key);
  }

  /** With numeric, non-negative revenues and a selected station from the
      list, the second slice is exactly the revenue of the other stations:
      the clamp never bites. */
  lemma OthersExact(stations: seq<Record>, k: int)
    requires 0 <= k < |stations|
    requires forall i | 0 <= i < |stations| ::
      NumericField(stations[i], "total_revenue_inr") && FieldValue(stations[i], "total_revenue_inr") >= 0
    ensures RevenuePie(Some(stations[k]), stations).data[1] ==
      JNum(Total(stations[..k], "total_revenue_inr") + Total(stations[k + 1..], "total_revenue_inr"))
  {
    var key := "total_revenue_inr";
    SumIsTotal(stations, key);
    TotalWithout(stations, k, key);
    TotalNonNegative(stations[..k], key);
    TotalNonNegative(stations[k + 1..], key);
  }

  lemma {:induction false} TotalNonNegative(stations: seq<Record>, key: string)
    requires forall i | 0 <= i < |stations| :: FieldValue(stations[i], key) >= 0
    ensures Total(stations, key) >= 0
  {
    if |stations| > 0 {
      TotalNonNegative(stations[1..], key);
    }
  }

  // ------------------------------------------------------- the sessions line

  datatype Timeseries = Timeseries(labels: seq<Option<Json>>, values: seq<Json>)

  /** A CSV cell as a JavaScript value: a string, or `undefined`. */
  function CellJson(c: Option<string>): Option<Json> {
    if c.Some? then Some(JStr(c.value)) else None
  }

  /** The sessions value the dashboard reads from a row of the per-station
      file: `Number(r[sessionsIdx] || 0)`, which, unlike the station pages,
      keeps `NaN`. */
  function CompanyRowValue(row: seq<string>, sessionsIdx: int): (v: Json)
    ensures v.JNum? || v.JNaN?
    ensures sessionsIdx == -1 ==> v == JNum(0)
    ensures sessionsIdx != -1 ==> v == NumberValue(ToNumber(Some(OrZero(CellJson(CellAt(row, sessionsIdx))))))
  {
    if sessionsIdx == -1 then JNum(0)
    else if Filled(CellAt(row, sessionsIdx)) then NumberValue(ParseNumber(row[sessionsIdx]))
    else JNum(0)
  }

  /** The dashboard and the station pages agree on every row except where
      the cell is not a number: the pages draw 0 there, the dashboard `NaN`. */
  lemma CompanyRowAgrees(row: seq<string>, sessionsIdx: int)
    ensures CompanyRowValue(row, sessionsIdx).JNum? ==> CompanyRowValue(row, sessionsIdx).n == RowValue(row, sessionsIdx)
    ensures CompanyRowValue(row, sessionsIdx).JNaN? <==>
      sessionsIdx != -1 && Filled(CellAt(row, sessionsIdx)) && ParseNumber(row[sessionsIdx]).None?
  {
  }

  /** The overview line: station names and their average sessions. */
  function Overview(stations: seq<Record>): (t: Timeseries)
    ensures |t.labels| == |t.values| == |stations|
    ensures forall i | 0 <= i < |stations| ::
      t.labels[i] == Get(stations[i], "name") && t.values[i] == OrZero(Get(stations[i], "avg_sessions"))
  {
    Timeseries(seq(|stations|, i requires 0 <= i < |stations| => Get(stations[i], "name")),
               seq(|stations|, i requires 0 <= i < |stations| => OrZero(Get(stations[i], "avg_sessions"))))
  }

  /** The line for the selected station from its CSV file: the same dates
      as the station pages, and the same values wherever the cell is a
      number. */
  function StationLine(text: string): (t: Timeseries)
    ensures |t.labels| == |t.values| == |SeriesOf(text).dates|
    ensures forall i | 0 <= i < |t.labels| :: t.labels[i] == Some(JStr(SeriesOf(text).dates[i]))
    ensures forall i | 0 <= i < |t.values| :: t.values[i].JNum? ==> t.values[i].n == SeriesOf(text).values[i]
  {
    LineOf(Rows(text)[1..], DateColumn(text), SessionsColumn(text))
  }

  /** The line drawn from the data rows, given the date and sessions
      columns: row by row, the station pages' dates, and their numbers
      wherever the cell is a number. */
  function LineOf(rows: seq<seq<string>>, d: int, c: int): (t: Timeseries)
    ensures |t.labels| == |t.values| == |SeriesFrom(rows, d, c).dates|
    ensures forall i | 0 <= i < |t.labels| :: t.labels[i] == Some(JStr(SeriesFrom(rows, d, c).dates[i]))
    ensures forall i | 0 <= i < |t.values| :: t.values[i].JNum? ==> t.values[i].n == SeriesFrom(rows, d, c).values[i]
  {
    forall i | 0 <= i < |rows|
      ensures ListRowDate(rows[i], d) == RowDate(rows[i], d)
      ensures CompanyRowValue(rows[i], c).JNum? ==> CompanyRowValue(rows[i], c).n == RowValue(rows[i], c)
    {
      ListRowDateSame(rows[i], d);
      CompanyRowAgrees(rows[i], c);
    }
    Timeseries(seq(|rows|, i requires 0 <= i < |rows| => Some(JStr(ListRowDate(rows[i], d)))),
               seq(|rows|, i requires 0 <= i < |rows| => CompanyRowValue(rows[i], c)))
  }

  /** `loadTS`: a selected station with a truthy id whose CSV loads gets its
      own line; otherwise (`csv` None is a failed fetch) the overview. */
  function LoadTimeseries(selected: Option<Record>, stations: seq<Record>, csv: Option<string>): (t: Timeseries)
    ensures selected.None? || !Truthy(Get(selected.value, "station_id")) || csv.None? ==> t == Overview(stations)
    ensures selected.Some? && Truthy(Get(selected.value, "station_id")) && csv.Some? ==>
      t == StationLine(csv.value)
  {
    if selected.Some? && Truthy(Get(selected.value, "station_id")) && csv.Some? then StationLine(csv.value)
    else Overview(stations)
  }
}

=== FILE: json.dfy ===
/** JSON values as the dashboards read them from stations_summary.json,
    with the JavaScript operators the dashboards apply to them: property
    access, `??`, `||`, `Number(...)`, `String(...)` and `+`.

    Numbers are integers here. A record is a map from keys to values; a key
    that is absent reads as `undefined`, which is None wherever a value may
    be missing. */
module JsValues {
  import opened Wrappers
  import opened JsText

  /** A JSON value, plus `NaN` (which `Number(...)` can produce). `JObject`
      stands for a plain object, whose contents are not modelled; arrays
      are not values of this model. */
  datatype Json = JNull | JBool(b: bool) | JNum(n: int) | JNaN | JStr(s: string) | JObject

  type Record = map<string, Json>

  /** `r[key]`: None is `undefined`. */
  function Get(r: Record, key: string): (v: Option<Json>)
    ensures v.Some? <==> key in r
    ensures v.Some? ==> v.value == r[key]
  {
    if key in r then Some(r[key]) else None
  }

  /** `a ?? b`: `b` when `a` is `undefined` or `null`. */
  function Coalesce(a: Option<Json>, b: Option<Json>): (r: Option<Json>)
    ensures a.Some? && a.value != JNull ==> r == a
    ensures a.None? || a == Some(JNull) ==> r == b
  {
    if a.None? || a == Some(JNull) then b else a
  }

  /** JavaScript truthiness. */
  predicate Truthy(v: Option<Json>) {
    match v
    case None => false
    case Some(JNull) => false
    case Some(JBool(b)) => b
    case Some(JNum(n)) => n != 0
    case Some(JNaN) => false
    case Some(JStr(s)) => s != ""
    case Some(JObject) => true
  }

  /** `v || 0`. */
  function OrZero(v: Option<Json>): (r: Json)
    ensures Truthy(v) ==> r == v.value
    ensures !Truthy(v) ==> r == JNum(0)
  {
    if Truthy(v) then v.value else JNum(0)
  }

  /** `Number(v)`: None is `NaN`. Strings go through the integer reading of
      `Number`. */
  function ToNumber(v: Option<Json>): (r: Option<int>)
    ensures v == Some(JNull) ==> r == Some(0)
    ensures v.None? || v == Some(JNaN) || v == Some(JObject) ==> r.None?
    ensures v.Some? && v.value.JNum? ==> r == Some(v.value.n)
    ensures v.Some? && v.value.JStr? ==> r == ParseNumber(v.value.s)
  {
    match v
    case None => None
    case Some(JNull) => Some(0)
    case Some(JBool(b)) => Some(if b then 1 else 0)
    case Some(JNum(n)) => Some(n)
    case Some(JNaN) => None
    case Some(JStr(s)) => ParseNumber(s)
    case Some(JObject) => None
  }

  /** A number as a JSON value: `NaN` when there is none. */
  function NumberValue(n: Option<int>): (r: Json)
    ensures r.JNum? <==> n.Some?
    ensures n.Some? ==> r.n == n.value
  {
    match n
    case None => JNaN
    case Some(x) => JNum(x)
  }

  /** `String(v)`, also what a template literal inserts. */
  function ToText(v: Option<Json>): string {
    match v
    case None => "undefined"
    case Some(JNull) => "null"
    case Some(JBool(b)) => if b then "true" else "false"
    case Some(JNum(n)) => IntToString(n)
    case Some(JNaN) => "NaN"
    case Some(JStr(s)) => s
    case Some(JObject) => "[object Object]"
  }

  /** `a + b`: concatenation as soon as either side is a string (or an
      object, which turns into one); otherwise numeric addition, `NaN`
      when either side is `NaN`. */
  function Add(a: Json, b: Json): (r: Json)
    ensures a.JNum? && b.JNum? ==> r == JNum(a.n + b.n)
    ensures a.JStr? || b.JStr? ==> r == JStr(ToText(Some(a)) + ToText(Some(b)))
    ensures r.JNaN? <==> !a.JStr? && !b.JStr? && !a.JObject? && !b.JObject? && (a.JNaN? || b.JNaN?)
  {
    if a.JStr? || b.JStr? || a.JObject? || b.JObject? then
      JStr(ToText(Some(a)) + ToText(Some(b)))
    else
      NumberValue(match (ToNumber(Some(a)), ToNumber(Some(b)))
                  case (Some(x), Some(y)) => Some(x + y)
                  case _ => None)
  }

  /** `Number(v) || 0` as an integer: `NaN` and 0 both become 0. */
  function NumberOrZero(v: Option<Json>): (r: int)
    ensures ToNumber(v).Some? ==> r == ToNumber(v).value
    ensures ToNumber(v).None? ==> r == 0
  {
    ToNumber(v).GetOr(0)
  }

  /** Reading a number back from its `String` form. */
  lemma ToNumberOfText(n: int)
    ensures ToNumber(Some(JStr(ToText(Some(JNum(n)))))) == Some(n)
  {
    ParseIntToString(n);
  }
}

=== FILE: jstext.dfy ===
/** The pieces of JavaScript's string and number semantics that the
    application code leans on: `trim`, the `\s` character class,
    `toLowerCase`, `includes`/`indexOf`, `split`, `replace` with a string
    pattern, `String(n)` for an integer `n`, and `Number(s)`. */
module JsText {
  import opened Wrappers

  /** ECMAScript white space and line terminators: exactly the characters
      `String.prototype.trim` strips and the regular-expression class `\s`
      matches. */
  predicate IsSpace(c: char) {
    || c == ' ' || c == '\t' || c == '\n' || c == '\U{000B}' || c == '\U{000C}' || c == '\r'
    || c == '\U{00A0}' || c == '\U{1680}' || ('\U{2000}' <= c <= '\U{200A}')
    || c == '\U{2028}' || c == '\U{2029}' || c == '\U{202F}' || c == '\U{205F}'
    || c == '\U{3000}' || c == '\U{FEFF}'
  }

  /** `s` with its leading white space removed. */
  function TrimStart(s: string): (r: string)
    ensures |r| <= |s| && r == s[|s| - |r|..]
    ensures forall i | 0 <= i < |s| - |r| :: IsSpace(s[i])
    ensures |r| > 0 ==> !IsSpace(r[0])
  {
    if |s| > 0 && IsSpace(s[0]) then TrimStart(s[1..]) else s
  }

  /** `s` with its trailing white space removed. */
  function TrimEnd(s: string): (r: string)
    ensures |r| <= |s| && r == s[..|r|]
    ensures forall i | |r| <= i < |s| :: IsSpace(s[i])
    ensures |r| > 0 ==> !IsSpace(r[|r| - 1])
  {
    if |s| > 0 && IsSpace(s[|s| - 1]) then TrimEnd(s[..|s| - 1]) else s
  }

  /** `String.prototype.trim`. */
  function Trim(s: string): string {
    TrimEnd(TrimStart(s))
  }

  /** A string whose first and last characters are not white space is its
      own trim. */
  lemma TrimNoOp(s: string)
    requires |s| > 0 ==> !IsSpace(s[0]) && !IsSpace(s[|s| - 1])
    ensures Trim(s) == s
  {
  }

  /** Lower-casing of one character; only the ASCII letters are mapped. */
  function LowerChar(c: char): char {
    if 'A' <= c <= 'Z' then (c as int + 32) as char else c
  }

  /** `String.prototype.toLowerCase`, restricted to ASCII letters. */
  function ToLower(s: string): (r: string)
    ensures |r| == |s|
  {
    seq(|s|, i requires 0 <= i < |s| => LowerChar(s[i]))
  }

  /** Lower-casing is idempotent and never produces an ASCII capital. */
  lemma ToLowerIdempotent(s: string)
    ensures ToLower(ToLower(s)) == ToLower(s)
    ensures forall i | 0 <= i < |s| :: !('A' <= ToLower(s)[i] <= 'Z')
  {
  }

  /** `pat` occurs in `s` starting at position `k`. */
  predicate OccursAt(s: string, pat: string, k: int) {
    0 <= k && k + |pat| <= |s| && s[k..k + |pat|] == pat
  }

  /** `s.indexOf(pat)`: the first position at which `pat` occurs, or None
      (JavaScript's -1). */
  function IndexOf(s: string, pat: string): (r: Option<nat>)
    ensures r.Some? ==> OccursAt(s, pat, r.value)
    ensures r.Some? ==> forall k | 0 <= k < r.value :: !OccursAt(s, pat, k)
    ensures r.None? ==> forall k :: !OccursAt(s, pat, k)
    decreases |s|
  {
    if pat <= s then
      assert s[0..|pat|] == pat;
      Some(0)
    else if |s| == 0 then
      None
    else
      OccursTail(s, pat);
      match IndexOf(s[1..], pat)
      case None => None
      case Some(i) => Some(i + 1)
  }

  /** An occurrence past the first character is an occurrence in the tail,
      one position earlier. */
  lemma OccursTail(s: string, pat: string)
    requires |s| > 0
    ensures forall k | 1 <= k :: OccursAt(s, pat, k) <==> OccursAt(s[1..], pat, k - 1)
  {
    forall k | 1 <= k
      ensures OccursAt(s, pat, k) <==> OccursAt(s[1..], pat, k - 1)
    {
      if k + |pat| <= |s| {
        assert s[1..][k - 1..k - 1 + |pat|] == s[k..k + |pat|];
      }
    }
  }

  /** `s.includes(pat)`. */
  predicate Contains(s: string, pat: string) {
    IndexOf(s, pat).Some?
  }

  /** `s.replace(pat, rep)` with a string pattern: only the first occurrence
      is replaced. */
  function ReplaceFirst(s: string, pat: string, rep: string): (r: string)
    ensures !Contains(s, pat) ==> r == s
    ensures Contains(s, pat) ==>
      exists i | 0 <= i <= |s| - |pat| ::
        && OccursAt(s, pat, i) && (forall k | 0 <= k < i :: !OccursAt(s, pat, k))
        && r == s[..i] + rep + s[i + |pat|..]
  {
    match IndexOf(s, pat)
    case None => s
    case Some(i) => s[..i] + rep + s[i + |pat|..]
  }

  /** Removing the first occurrence of a prefix strips exactly that prefix. */
  lemma ReplaceFirstOfPrefix(pat: string, t: string)
    ensures ReplaceFirst(pat + t, pat, "") == t
  {
    assert pat <= pat + t;
    assert (pat + t)[|pat|..] == t;
  }

  /** A string that does not contain the pattern is left as it is. */
  lemma ReplaceFirstAbsent(s: string, pat: string)
    requires !Contains(s, pat)
    ensures ReplaceFirst(s, pat, "") == s
  {
  }

  /** `s.replace(/\s/g, c)`: every white-space character becomes `c`. */
  function ReplaceSpaces(s: string, c: char): (r: string)
    ensures |r| == |s|
  {
    seq(|s|, i requires 0 <= i < |s| => if IsSpace(s[i]) then c else s[i])
  }

  /** The inverse of `Split`: the parts joined with `sep` between them. */
  function Join(parts: seq<string>, sep: char): string
    requires |parts| >= 1
  {
    if |parts| == 1 then parts[0] else parts[0] + [sep] + Join(parts[1..], sep)
  }

  /** `s.split(sep)` for a one-character separator: the maximal pieces of `s`
      between separators, always at least one (the empty string splits to
      `[""]`). */
  function Split(s: string, sep: char): (r: seq<string>)
    ensures |r| >= 1
    ensures forall i | 0 <= i < |r| :: sep !in r[i]
    ensures Join(r, sep) == s
  {
    if |s| == 0 then [""]
    else if s[0] == sep then
      var rest := Split(s[1..], sep);
      assert [""] + rest == [""] + rest;
      assert ([""] + rest)[1..] == rest;
      assert s == [sep] + s[1..];
      [""] + rest
    else
      var rest := Split(s[1..], sep);
      var r := [[s[0]] + rest[0]] + rest[1..];
      assert r[1..] == rest[1..];
      assert s == [s[0]] + s[1..];
      r
  }

  /** A string without the separator splits to itself alone. */
  lemma {:induction false} SplitNoSep(a: string, sep: char)
    requires sep !in a
    ensures Split(a, sep) == [a]
  {
    if |a| > 0 {
      assert a[0] in a;
      assert forall x | x in a[1..] :: x in a;
      SplitNoSep(a[1..], sep);
      assert [a[0]] + a[1..] == a;
    }
  }

  /** A leading piece without the separator comes off as the first part. */
  lemma {:induction false} SplitCons(a: string, b: string, sep: char)
    requires sep !in a
    ensures Split(a + [sep] + b, sep) == [a] + Split(b, sep)
  {
    var s := a + [sep] + b;
    if |a| == 0 {
      assert s[1..] == b;
    } else {
      assert a[0] in a;
      assert forall x | x in a[1..] :: x in a;
      assert s[1..] == a[1..] + [sep] + b;
      SplitCons(a[1..], b, sep);
      assert [a[0]] + a[1..] == a;
    }
  }

  /** Splitting a join recovers the parts when no part holds the separator. */
  lemma {:induction false} SplitJoin(parts: seq<string>, sep: char)
    requires |parts| >= 1
    requires forall i | 0 <= i < |parts| :: sep !in parts[i]
    ensures Split(Join(parts, sep), sep) == parts
  {
    if |parts| == 1 {
      SplitNoSep(parts[0], sep);
    } else {
      SplitJoin(parts[1..], sep);
      SplitCons(parts[0], Join(parts[1..], sep), sep);
      assert parts == [parts[0]] + parts[1..];
    }
  }

  /** An ASCII decimal digit. */
  predicate IsDigit(c: char) {
    '0' <= c <= '9'
  }

  predicate AllDigits(s: string) {
    forall i | 0 <= i < |s| :: IsDigit(s[i])
  }

  function DigitChar(d: nat): (c: char)
    requires d < 10
    ensures IsDigit(c)
  {
    ('0' as int + d) as char
  }

  /** The value of a string of decimal digits, most significant first. */
  function DigitsValue(s: string): nat
    requires AllDigits(s)
  {
    if |s| == 0 then 0 else DigitsValue(s[..|s| - 1]) * 10 + (s[|s| - 1] as int - '0' as int)
  }

  /** The shortest decimal rendering of a natural number. */
  function NatToString(n: nat): (r: string)
    ensures |r| >= 1 && AllDigits(r)
    ensures r[0] != '0' || n == 0
  {
    if n < 10 then [DigitChar(n)] else NatToString(n / 10) + [DigitChar(n % 10)]
  }

  /** Reading back the rendering of `n` gives `n`. */
  lemma {:induction false} NatToStringValue(n: nat)
    ensures DigitsValue(NatToString(n)) == n
  {
    if n >= 10 {
      var r := NatToString(n);
      assert r[..|r| - 1] == NatToString(n / 10);
      NatToStringValue(n / 10);
    }
  }

  /** `String(n)` (and `${n}`) for an integer `n`. */
  function IntToString(n: int): (r: string)
    ensures |r| >= 1
    ensures forall i | 0 <= i < |r| :: IsDigit(r[i]) || (i == 0 && r[i] == '-')
  {
    if n < 0 then "-" + NatToString(-n) else NatToString(n)
  }

  /** What `Number` accepts, once trimmed: the empty string, or an optional
      sign followed by one or more decimal digits. */
  predicate IsIntegerLiteral(t: string) {
    || |t| == 0
    || (AllDigits(t) && |t| > 0)
    || (|t| > 1 && (t[0] == '-' || t[0] == '+') && AllDigits(t[1..]))
  }

  /** `Number(s)` for a string `s`, restricted to integer literals: surrounding
      white space is ignored, the empty string is 0, and anything else that is
      not a signed decimal integer is `NaN` (None). */
  function ParseNumber(s: string): (r: Option<int>)
    ensures r.Some? <==> IsIntegerLiteral(Trim(s))
    ensures Trim(s) == "" ==> r == Some(0)
  {
    var t := Trim(s);
    if |t| == 0 then Some(0)
    else if AllDigits(t) then Some(DigitsValue(t))
    else if |t| > 1 && t[0] == '-' && AllDigits(t[1..]) then Some(0 - DigitsValue(t[1..]) as int)
    else if |t| > 1 && t[0] == '+' && AllDigits(t[1..]) then Some(DigitsValue(t[1..]))
    else None
  }

  /** `Number(String(n)) === n` for every integer. */
  lemma ParseIntToString(n: int)
    ensures ParseNumber(IntToString(n)) == Some(n)
  {
    var r := IntToString(n);
    assert !IsSpace(r[0]) && !IsSpace(r[|r| - 1]);
    TrimNoOp(r);
    if n < 0 {
      assert r[1..] == NatToString(-n);
      NatToStringValue(-n);
      assert !AllDigits(r) by { assert !IsDigit(r[0]); }
    } else {
      NatToStringValue(n);
    }
  }
}

=== FILE: login.dfy ===
/** `handleLogin` of the login page (frontend/src/pages/LoginPage.js): how
    the answer from POST /api/login becomes an error message, three stored
    keys and a navigation target. The request itself is a parameter. */
module LoginPage {
  import opened Wrappers
  import opened Records
  import Routing

  /** The fields of the parsed reply that the page reads; a field the reply
      lacks is None. */
  datatype ReplyData = ReplyData(error: Option<string>, token: Option<string>,
                                 role: Option<string>, username: Option<string>)

  /** How the request ended: an HTTP reply (`res.ok` and its JSON), or an
      exception from `fetch` or `res.json()`. */
  datatype Response = Answered(ok: bool, data: ReplyData) | Threw

  /** The page state the handler leaves behind. */
  datatype LoginState = LoginState(error: string, loading: bool,
                                   storage: map<string, string>, navigateTo: Option<string>)

  const DefaultError := "Invalid credentials. Try again."
  const ServerError := "Server error. Backend might not be running."

  /** `localStorage.setItem(key, value)` stores the string form of the value:
      a missing field is stored as the text "undefined". */
  function Stored(v: Option<string>): (r: string)
    ensures v.Some? ==> r == v.value
    ensures v.None? ==> r == "undefined"
  {
    v.GetOr("undefined")
  }

  /** The state as the handler starts: error cleared, loading on. */
  function Begin(s: LoginState): (r: LoginState)
    ensures r.error == "" && r.loading
    ensures r.storage == s.storage && r.navigateTo == s.navigateTo
  {
    s.(error := "", loading := true)
  }

  /** The whole handler, from the state before the attempt. */
  function HandleLogin(s: LoginState, resp: Response): (r: LoginState)
    ensures !r.loading
    ensures resp.Threw? ==> r == s.(error := ServerError, loading := false)
    ensures resp.Answered? && !resp.ok ==>
      && r.storage == s.storage && r.navigateTo == s.navigateTo
      && r.error == (if Truthy(resp.data.error) then resp.data.error.value else DefaultError)
      && r.error != ""
    ensures resp.Answered? && resp.ok ==>
      && r.error == ""
      && r.storage.Keys == s.storage.Keys + {"token", "role", "username"}
      && r.storage["token"] == Stored(resp.data.token)
      && r.storage["role"] == Stored(resp.data.role)
      && r.storage["username"] == Stored(resp.data.username)
      && (forall k | k in s.storage && k !in {"token", "role", "username"} :: r.storage[k] == s.storage[k])
      && r.navigateTo == Some(if resp.data.role == Some("company") then "/company" else "/station")
  {
    var t := Begin(s);
    var t' :=
      match resp
      case Threw => t.(error := ServerError)
      case Answered(ok, data) =>
        if !ok then
          t.(error := if Truthy(data.error) then data.error.value else DefaultError)
        else
          var st := t.storage["token" := Stored(data.token)]["role" := Stored(data.role)]["username" := Stored(data.username)];
          t.(storage := st, navigateTo := Some(if data.role == Some("company") then "/company" else "/station"));
    t'.(loading := false)
  }

  /** After a successful login with a known role, the page navigated to
      renders straight away under the stored token and role; any other role
      (including a reply without a `role` field) lands on "/station" and is
      redirected there again and again. A reply without a token still
      counts, since the stored text "undefined" is truthy; only an empty
      token sends the user back to the login page. */
  lemma LoginThenRoute(s: LoginState, data: ReplyData, hops: nat)
    ensures
      var r := HandleLogin(s, Answered(true, data));
      var token := Some(r.storage["token"]);
      var role := Some(r.storage["role"]);
      && (data.token != Some("") && (data.role == Some("company") || data.role == Some("station")) ==>
            Routing.Resolve(r.navigateTo.value, token, role).Shows?)
      && (data.token != Some("") && data.role != Some("company") && data.role != Some("station") ==>
            Routing.Follow(r.navigateTo.value, token, role, hops).None?)
      && (data.token == Some("") ==> Routing.Resolve(r.navigateTo.value, token, role) == Routing.Redirects("/"))
  {
    var r := HandleLogin(s, Answered(true, data));
    var token := Some(r.storage["token"]);
    var role := Some(r.storage["role"]);
    if data.token != Some("") && data.role != Some("company") && data.role != Some("station") {
      assert role != Some("company") && role != Some("station");
      Routing.UnknownRoleLoops(token, role, hops);
    }
  }
}

=== FILE: records.dfy ===
/** The two entities both backends and the dashboards share: the user
    account and the complaint record, with the list operations the code
    applies to complaint arrays. */
module Records {
  import opened Wrappers

  /** A user account. `name` appears only in the lowdb backend's data. */
  datatype User = User(id: int, username: string, password: string, role: string, name: Option<string>)

  /** A complaint. `updatedAt` is absent until the status is first patched. */
  datatype Complaint = Complaint(
    id: int,
    name: string,
    email: string,
    issue: string,
    status: string,
    createdAt: string,
    updatedAt: Option<string>)

  /** JavaScript truthiness of a string field that may be missing. */
  predicate Truthy(v: Option<string>) {
    v.Some? && v.value != ""
  }

  /** `cs.filter(c => c.id !== id)`. */
  function WithoutId(cs: seq<Complaint>, id: int): (r: seq<Complaint>)
    ensures |r| <= |cs|
    ensures forall c :: c in r <==> c in cs && c.id != id
  {
    if |cs| == 0 then []
    else (if cs[0].id == id then [] else [cs[0]]) + WithoutId(cs[1..], id)
  }

  /** Filtering distributes over concatenation, so the kept complaints keep
      their relative order. */
  lemma {:induction false} WithoutIdAppend(a: seq<Complaint>, b: seq<Complaint>, id: int)
    ensures WithoutId(a + b, id) == WithoutId(a, id) + WithoutId(b, id)
  {
    if |a| > 0 {
      assert (a + b)[1..] == a[1..] + b;
      WithoutIdAppend(a[1..], b, id);
    } else {
      assert a + b == b;
    }
  }

  /** Removing an id twice is removing it once. */
  lemma {:induction false} WithoutIdIdempotent(cs: seq<Complaint>, id: int)
    ensures WithoutId(WithoutId(cs, id), id) == WithoutId(cs, id)
  {
    if |cs| > 0 {
      WithoutIdIdempotent(cs[1..], id);
      if cs[0].id != id {
        var r := WithoutId(cs, id);
        assert r == [cs[0]] + WithoutId(cs[1..], id);
        assert r[0] == cs[0] && r[1..] == WithoutId(cs[1..], id);
        assert WithoutId(r, id) == [cs[0]] + WithoutId(r[1..], id);
      } else {
        assert WithoutId(cs, id) == [] + WithoutId(cs[1..], id);
        assert [] + WithoutId(cs[1..], id) == WithoutId(cs[1..], id);
      }
    }
  }

  /** A list without the id is left exactly as it is. */
  lemma {:induction false} WithoutIdAbsent(cs: seq<Complaint>, id: int)
    requires forall i | 0 <= i < |cs| :: cs[i].id != id
    ensures WithoutId(cs, id) == cs
  {
    if |cs| > 0 {
      WithoutIdAbsent(cs[1..], id);
      assert cs == [cs[0]] + cs[1..];
    }
  }

  /** `cs.map(c => c.id === u.id ? u : c)`. */
  function ReplaceById(cs: seq<Complaint>, u: Complaint): (r: seq<Complaint>)
    ensures |r| == |cs|
    ensures forall i | 0 <= i < |cs| :: r[i] == (if cs[i].id == u.id then u else cs[i])
  {
    if |cs| == 0 then []
    else [if cs[0].id == u.id then u else cs[0]] + ReplaceById(cs[1..], u)
  }

  /** Replacing with the same record again changes nothing further. */
  lemma ReplaceByIdIdempotent(cs: seq<Complaint>, u: Complaint)
    ensures ReplaceById(ReplaceById(cs, u), u) == ReplaceById(cs, u)
  {
  }

  /** `cs.map(c => c.id === id ? { ...c, status: "Failed" } : c)`. */
  function MarkFailed(cs: seq<Complaint>, id: int): (r: seq<Complaint>)
    ensures |r| == |cs|
    ensures forall i | 0 <= i < |cs| ::
      r[i] == (if cs[i].id == id then cs[i].(status := "Failed") else cs[i])
  {
    if |cs| == 0 then []
    else [if cs[0].id == id then cs[0].(status := "Failed") else cs[0]] + MarkFailed(cs[1..], id)
  }
}

=== FILE: report.dfy ===
/** The daily-sessions report both station pages build from
    ev_station_<id>_daily_data.csv (frontend/src/pages/StationDashboard.js
    `loadStationReport`, frontend/src/pages/StationListPage.js
    `openDetails`): splitting the text into cells, choosing the date and
    sessions columns, turning each data row into one label and one value,
    and the first-occurrence minimum and maximum with their point
    highlighting. */
module CsvReport {
  import opened Wrappers
  import opened JsText
  import opened Seqs

  /** `text.trim().split("\n").map((r) => r.split(","))`. */
  function Rows(text: string): (r: seq<seq<string>>)
    ensures |r| == |Split(Trim(text), '\n')| >= 1
    ensures forall i | 0 <= i < |r| :: |r[i]| >= 1 && Join(r[i], ',') == Split(Trim(text), '\n')[i]
    ensures forall i, j | 0 <= i < |r| && 0 <= j < |r[i]| :: ',' !in r[i][j]
  {
    var lines := Split(Trim(text), '\n');
    seq(|lines|, i requires 0 <= i < |lines| => Split(lines[i], ','))
  }

  /** `Array.prototype.findIndex` as JavaScript reports it: -1 for none. */
  function FindIndexJs<T>(xs: seq<T>, p: T -> bool): (r: int)
    ensures -1 <= r < |xs|
    ensures r >= 0 ==> p(xs[r]) && forall j | 0 <= j < r :: !p(xs[j])
    ensures r == -1 <==> forall j | 0 <= j < |xs| :: !p(xs[j])
  {
    match FindIndex(xs, p)
    case None => -1
    case Some(i) => i
  }

  /** `r[idx]`: None (`undefined`) outside the row, including at -1. */
  function CellAt(row: seq<string>, idx: int): (c: Option<string>)
    ensures c.Some? <==> 0 <= idx < |row|
  {
    if 0 <= idx < |row| then Some(row[idx]) else None
  }

  /** A cell that is present and not empty. */
  predicate Filled(c: Option<string>) {
    c.Some? && c.value != ""
  }

  /** The column rule: the first header containing "charging_sessions",
      else the first containing "sessions", else -1. */
  function SessionsColumnOf(names: seq<string>): (r: int)
    ensures -1 <= r < |names|
    ensures (exists j | 0 <= j < |names| :: Contains(names[j], "charging_sessions")) ==>
      r >= 0 && Contains(names[r], "charging_sessions")
      && forall j | 0 <= j < r :: !Contains(names[j], "charging_sessions")
    ensures (forall j | 0 <= j < |names| :: !Contains(names[j], "charging_sessions")) ==>
      r == FindIndexJs(names, (h: string) => Contains(h, "sessions"))
  {
    var c := FindIndexJs(names, (h: string) => Contains(h, "charging_sessions"));
    if c != -1 then c else FindIndexJs(names, (h: string) => Contains(h, "sessions"))
  }

  /** Every header that contains "charging_sessions" contains "sessions". */
  lemma ChargingSessionsContainsSessions(h: string)
    requires Contains(h, "charging_sessions")
    ensures Contains(h, "sessions")
  {
    var k := IndexOf(h, "charging_sessions").value;
    assert h[k + 9..k + 17] == "charging_sessions"[9..17];
    assert OccursAt(h, "sessions", k + 9);
  }

  /** There is no sessions column exactly when no header mentions
      "sessions". */
  lemma SessionsColumnNone(names: seq<string>)
    ensures SessionsColumnOf(names) == -1 <==> forall j | 0 <= j < |names| :: !Contains(names[j], "sessions")
  {
    forall j | 0 <= j < |names|
      ensures Contains(names[j], "charging_sessions") ==> Contains(names[j], "sessions")
    {
      if Contains(names[j], "charging_sessions") {
        ChargingSessionsContainsSessions(names[j]);
      }
    }
  }

  // ------------------------------------------------ the station dashboard

  /** `rows.shift().map((h) => h.trim().toLowerCase())`. */
  function Header(text: string): (r: seq<string>)
    ensures |r| == |Rows(text)[0]|
    ensures forall i | 0 <= i < |r| :: r[i] == ToLower(Trim(Rows(text)[0][i]))
  {
    var h := Rows(text)[0];
    seq(|h|, i requires 0 <= i < |h| => ToLower(Trim(h[i])))
  }

  function DateColumn(text: string): (r: int)
    ensures -1 <= r < |Header(text)|
    ensures r >= 0 ==> Header(text)[r] == "date" && forall j | 0 <= j < r :: Header(text)[j] != "date"
    ensures r == -1 <==> forall j | 0 <= j < |Header(text)| :: Header(text)[j] != "date"
  {
    FindIndexJs(Header(text), (h: string) => h == "date")
  }

  function SessionsColumn(text: string): int {
    SessionsColumnOf(Header(text))
  }

  /** `dateIdx !== -1 && r[dateIdx] ? r[dateIdx].trim() : ""`. */
  function RowDate(row: seq<string>, dateIdx: int): (d: string)
    ensures !Filled(CellAt(row, dateIdx)) ==> d == ""
    ensures Filled(CellAt(row, dateIdx)) ==> d == Trim(row[dateIdx])
  {
    if dateIdx != -1 && Filled(CellAt(row, dateIdx)) then Trim(row[dateIdx]) else ""
  }

  /** The sessions value of a row, after `Number(...)`, the `isFinite` check
      and `Number(v) || 0`: the number in the cell, or 0 when the cell is
      missing, empty or not a number. */
  function RowValue(row: seq<string>, sessionsIdx: int): (v: int)
    ensures !Filled(CellAt(row, sessionsIdx)) ==> v == 0
    ensures Filled(CellAt(row, sessionsIdx)) ==> v == ParseNumber(row[sessionsIdx]).GetOr(0)
  {
    if sessionsIdx != -1 && Filled(CellAt(row, sessionsIdx)) then ParseNumber(row[sessionsIdx]).GetOr(0) else 0
  }

  /** The chart's labels and values: one of each per data row. */
  datatype Series = Series(dates: seq<string>, values: seq<int>)

  /** One label and one value per data row, read with the given columns. */
  function SeriesFrom(rows: seq<seq<string>>, dateIdx: int, sessionsIdx: int): (s: Series)
    ensures |s.dates| == |s.values| == |rows|
    ensures forall i | 0 <= i < |rows| ::
      s.dates[i] == RowDate(rows[i], dateIdx) && s.values[i] == RowValue(rows[i], sessionsIdx)
  {
    Series(seq(|rows|, i requires 0 <= i < |rows| => RowDate(rows[i], dateIdx)),
           seq(|rows|, i requires 0 <= i < |rows| => RowValue(rows[i], sessionsIdx)))
  }

  /** The station dashboard's series: the header row is consumed, every
      other row gives one point. */
  function SeriesOf(text: string): (s: Series)
    ensures |s.dates| == |s.values| == |Rows(text)| - 1
    ensures forall i | 0 <= i < |s.dates| ::
      && s.dates[i] == RowDate(Rows(text)[i + 1], DateColumn(text))
      && s.values[i] == RowValue(Rows(text)[i + 1], SessionsColumn(text))
  {
    SeriesFrom(Rows(text)[1..], DateColumn(text), SessionsColumn(text))
  }

  // ------------------------------------------------ the station list page

  /** The list page trims the header cells but lower-cases only while
      comparing. */
  function ListHeader(text: string): (r: seq<string>)
    ensures |r| == |Rows(text)[0]|
  {
    var h := Rows(text)[0];
    seq(|h|, i requires 0 <= i < |h| => Trim(h[i]))
  }

  function ListDateColumn(text: string): int {
    FindIndexJs(ListHeader(text), (h: string) => ToLower(h) == "date")
  }

  function ListSessionsColumn(text: string): int {
    var names := ListHeader(text);
    var c := FindIndexJs(names, (h: string) => Contains(ToLower(h), "charging_sessions"));
    if c != -1 then c else FindIndexJs(names, (h: string) => Contains(ToLower(h), "sessions"))
  }

  /** `r[dateIdx] ? r[dateIdx].trim() : ""`, without the `-1` test. */
  function ListRowDate(row: seq<string>, dateIdx: int): string {
    if Filled(CellAt(row, dateIdx)) then Trim(row[dateIdx]) else ""
  }

  function ListSeriesFrom(rows: seq<seq<string>>, dateIdx: int, sessionsIdx: int): (s: Series)
    ensures |s.dates| == |s.values| == |rows|
  {
    Series(seq(|rows|, i requires 0 <= i < |rows| => ListRowDate(rows[i], dateIdx)),
           seq(|rows|, i requires 0 <= i < |rows| => RowValue(rows[i], sessionsIdx)))
  }

  function ListSeriesOf(text: string): (s: Series)
    ensures |s.dates| == |s.values| == |Rows(text)| - 1
  {
    ListSeriesFrom(Rows(text)[1..], ListDateColumn(text), ListSessionsColumn(text))
  }

  /** Searching the same cells with the same test finds the same index. */
  lemma FindIndexJsSame<T, U>(xs: seq<T>, ys: seq<U>, p: T -> bool, q: U -> bool)
    requires |xs| == |ys|
    requires forall i | 0 <= i < |xs| :: p(xs[i]) == q(ys[i])
    ensures FindIndexJs(xs, p) == FindIndexJs(ys, q)
  {
    var a, b := FindIndexJs(xs, p), FindIndexJs(ys, q);
    if a >= 0 {
      assert q(ys[a]);
    }
    if b >= 0 {
      assert p(xs[b]);
    }
  }

  /** Lower-casing the trimmed header while comparing is the same as
      comparing the lower-cased header. */
  lemma ListHeaderLower(text: string)
    ensures |ListHeader(text)| == |Header(text)|
    ensures forall i | 0 <= i < |Header(text)| :: ToLower(ListHeader(text)[i]) == Header(text)[i]
  {
  }

  /** Both pages pick the same date and sessions columns. */
  lemma ListColumnsSame(text: string)
    ensures ListDateColumn(text) == DateColumn(text)
    ensures ListSessionsColumn(text) == SessionsColumn(text)
  {
    ListDateColumnSame(text);
    ListSessionsColumnSame(text);
  }

  lemma ListDateColumnSame(text: string)
    ensures ListDateColumn(text) == DateColumn(text)
  {
    ListHeaderLower(text);
    FindIndexJsSame(ListHeader(text), Header(text), (x: string) => ToLower(x) == "date", (x: string) => x == "date");
  }

  lemma ListSessionsColumnSame(text: string)
    ensures ListSessionsColumn(text) == SessionsColumn(text)
  {
    var h, lh := Header(text), ListHeader(text);
    ListHeaderLower(text);
    FindIndexJsSame(lh, h, (x: string) => Contains(ToLower(x), "charging_sessions"),
                           (x: string) => Contains(x, "charging_sessions"));
    FindIndexJsSame(lh, h, (x: string) => Contains(ToLower(x), "sessions"),
                           (x: string) => Contains(x, "sessions"));
  }

  /** The missing `-1` test makes no difference: there is no cell at -1. */
  lemma ListRowDateSame(row: seq<string>, dateIdx: int)
    ensures ListRowDate(row, dateIdx) == RowDate(row, dateIdx)
  {
  }

  /** The two pages choose the same columns and read every row the same
      way, so they chart the same series from the same file. */
  lemma ListSeriesMatchesDashboard(text: string)
    ensures ListSeriesOf(text) == SeriesOf(text)
  {
    ListColumnsSame(text);
    ListSeriesFromSame(Rows(text)[1..], DateColumn(text), SessionsColumn(text));
  }

  lemma ListSeriesFromSame(rows: seq<seq<string>>, dateIdx: int, sessionsIdx: int)
    ensures ListSeriesFrom(rows, dateIdx, sessionsIdx) == SeriesFrom(rows, dateIdx, sessionsIdx)
  {
    var a, b := ListSeriesFrom(rows, dateIdx, sessionsIdx), SeriesFrom(rows, dateIdx, sessionsIdx);
    forall i | 0 <= i < |rows| ensures a.dates[i] == b.dates[i] {
      ListRowDateSame(rows[i], dateIdx);
    }
  }

  // ------------------------------------------------ minimum and maximum

  /** `Infinity`, `-Infinity` and the integers between. */
  datatype Bound = NegInf | Fin(n: int) | PosInf

  /** `v < b` for a finite `v`. */
  predicate Below(v: int, b: Bound) {
    b.PosInf? || (b.Fin? && v < b.n)
  }

  /** `v > b` for a finite `v`. */
  predicate Above(v: int, b: Bound) {
    b.NegInf? || (b.Fin? && v > b.n)
  }

  /** `i` is the first position of a minimum of `xs`. */
  predicate FirstMin(xs: seq<int>, i: int) {
    0 <= i < |xs| && (forall j | 0 <= j < |xs| :: xs[i] <= xs[j]) && (forall j | 0 <= j < i :: xs[j] > xs[i])
  }

  /** `i` is the first position of a maximum of `xs`. */
  predicate FirstMax(xs: seq<int>, i: int) {
    0 <= i < |xs| && (forall j | 0 <= j < |xs| :: xs[i] >= xs[j]) && (forall j | 0 <= j < i :: xs[j] < xs[i])
  }

  /** The `forEach` scan with strict comparisons, starting from `Infinity`,
      `-Infinity` and -1: the values and first positions of the minimum and
      the maximum. */
  method MinMax(xs: seq<int>) returns (minVal: Bound, maxVal: Bound, minIdx: int, maxIdx: int)
    ensures |xs| == 0 ==> minVal == PosInf && maxVal == NegInf && minIdx == -1 && maxIdx == -1
    ensures |xs| > 0 ==> FirstMin(xs, minIdx) && FirstMax(xs, maxIdx)
    ensures |xs| > 0 ==> minVal == Fin(xs[minIdx]) && maxVal == Fin(xs[maxIdx])
  {
    minVal, maxVal, minIdx, maxIdx := PosInf, NegInf, -1, -1;
    var i := 0;
    while i < |xs|
      invariant 0 <= i <= |xs|
      invariant i == 0 ==> minVal == PosInf && maxVal == NegInf && minIdx == -1 && maxIdx == -1
      invariant i > 0 ==> FirstMin(xs[..i], minIdx) && minVal == Fin(xs[minIdx])
      invariant i > 0 ==> FirstMax(xs[..i], maxIdx) && maxVal == Fin(xs[maxIdx])
    {
      var v := xs[i];
      if Below(v, minVal) {
        minVal, minIdx := Fin(v), i;
      }
      if Above(v, maxVal) {
        maxVal, maxIdx := Fin(v), i;
      }
      i := i + 1;
    }
    assert xs[..i] == xs;
  }

  /** Equal values: the first of them is both the minimum and the maximum. */
  lemma ConstantFirst(xs: seq<int>, i: int)
    requires |xs| > 0 && forall j | 0 <= j < |xs| :: xs[j] == xs[0]
    ensures FirstMin(xs, i) <==> i == 0
    ensures FirstMax(xs, i) <==> i == 0
  {
    if 0 < i < |xs| {
      assert xs[0] == xs[i];
    }
  }

  /** The first minimum (and maximum) position is unique. */
  lemma FirstMinUnique(xs: seq<int>, i: int, k: int)
    requires FirstMin(xs, i) && FirstMin(xs, k)
    ensures i == k
  {
    assert xs[i] <= xs[k] && xs[k] <= xs[i];
  }

  lemma FirstMaxUnique(xs: seq<int>, i: int, k: int)
    requires FirstMax(xs, i) && FirstMax(xs, k)
    ensures i == k
  {
    assert xs[i] >= xs[k] && xs[k] >= xs[i];
  }

  // ------------------------------------------------ point styling

  datatype PointStyle = PointStyle(radius: int, color: string)

  const PlainColor := "rgba(0,255,136,0.95)"
  const MinColor := "#ff6b6b"
  const MaxColor := "#4dd0e1"

  /** `pointRadius` and `pointBackground`: every point plain, then the
      minimum marked, then the maximum marked, the maximum written last. */
  function PointStyles(n: nat, minIdx: int, maxIdx: int, plain: int, marked: int): (r: seq<PointStyle>)
    requires minIdx == -1 || 0 <= minIdx < n
    requires maxIdx == -1 || 0 <= maxIdx < n
    ensures |r| == n
    ensures forall i | 0 <= i < n ::
      r[i] == (if i == maxIdx then PointStyle(marked, MaxColor)
               else if i == minIdx then PointStyle(marked, MinColor)
               else PointStyle(plain, PlainColor))
  {
    var base := seq(n, _ => PointStyle(plain, PlainColor));
    var withMin := if minIdx != -1 then base[minIdx := PointStyle(marked, MinColor)] else base;
    if maxIdx != -1 then withMin[maxIdx := PointStyle(marked, MaxColor)] else withMin
  }

  /** The chart a page draws: labels, values and per-point styling. */
  datatype Chart = Chart(labels: seq<string>, values: seq<int>, styles: seq<PointStyle>)

  /** What a page shows under the chart: the minimum and maximum values
      (`Infinity` and `-Infinity` for an empty file). */
  datatype Extremes = Extremes(min: Bound, max: Bound)

  /** `chart` and `ext` show the series `s` with the given point radii: the
      labels and values are the series; for an empty series the extremes
      are `Infinity` and `-Infinity`; otherwise they are the values at the
      first minimum and the first maximum, both points are marked (the
      maximum's mark written last), and every other point is plain. */
  predicate Charted(s: Series, plain: int, marked: int, chart: Chart, ext: Extremes) {
    && chart.labels == s.dates && chart.values == s.values
    && |chart.styles| == |s.values|
    && (|s.values| == 0 ==> ext == Extremes(PosInf, NegInf))
    && (|s.values| > 0 ==>
      exists lo, hi | 0 <= lo < |s.values| && 0 <= hi < |s.values| ::
        && FirstMin(s.values, lo) && FirstMax(s.values, hi)
        && ext == Extremes(Fin(s.values[lo]), Fin(s.values[hi]))
        && chart.styles[hi] == PointStyle(marked, MaxColor)
        && (lo != hi ==> chart.styles[lo] == PointStyle(marked, MinColor))
        && forall i | 0 <= i < |s.values| && i != lo && i != hi :: chart.styles[i] == PointStyle(plain, PlainColor))
  }

  /** Builds the chart from a series with the given point radii. */
  method BuildChart(s: Series, plain: int, marked: int) returns (chart: Chart, ext: Extremes)
    requires |s.dates| == |s.values|
    ensures Charted(s, plain, marked, chart, ext)
  {
    var minVal, maxVal, minIdx, maxIdx := MinMax(s.values);
    var styles := PointStyles(|s.values|, minIdx, maxIdx, plain, marked);
    chart := Chart(s.dates, s.values, styles);
    ext := Extremes(minVal, maxVal);
    if |s.values| > 0 {
      assert styles[maxIdx] == PointStyle(marked, MaxColor);
      assert minIdx != maxIdx ==> styles[minIdx] == PointStyle(marked, MinColor);
    }
  }
}

=== FILE: routing.dfy ===
/** Client-side routing: the `PrivateRoute` guard
    (frontend/src/components/PrivateRoute.js) and the route table with its
    catch-all (frontend/src/App.js). Both read the token and the role from
    local storage; here they are parameters, `None` standing for a key that
    is not set. */
module Routing {
  import opened Wrappers
  import opened Records

  /** What the guard does: render the protected page, or redirect. */
  datatype Guarded = Children | Navigate(to: string)

  /** The pages the route table can show. */
  datatype Page = LoginPage | CompanyDashboard | AdminComplaints | StationDashboard

  /** What the router does with a path. */
  datatype Outcome = Shows(page: Page) | Redirects(to: string)

  /** `PrivateRoute({ role: requiredRole, children })`. */
  function Guard(required: Option<string>, token: Option<string>, role: Option<string>): (r: Guarded)
    ensures r == Children <==> Truthy(token) && (!Truthy(required) || role == required)
    ensures r.Navigate? ==> r.to in {"/", "/company", "/station"}
    ensures !Truthy(token) ==> r == Navigate("/")
    ensures Truthy(token) && r.Navigate? ==> r.to == (if role == Some("company") then "/company" else "/station")
  {
    if !Truthy(token) then Navigate("/")
    else if Truthy(required) && role != required then
      Navigate(if role == Some("company") then "/company" else "/station")
    else Children
  }

  /** `authenticatedLanding` in App. */
  function Landing(role: Option<string>): (r: string)
    ensures r in {"/", "/company", "/station"}
    ensures r == "/" <==> role != Some("company") && role != Some("station")
  {
    if role == Some("company") then "/company"
    else if role == Some("station") then "/station"
    else "/"
  }

  /** One entry of the route table. */
  datatype Route = Open(page: Page) | Protected(role: string, page: Page) | CatchAll

  /** The route table: exact paths, anything else falls to `*`. */
  function RouteFor(path: string): (r: Route)
    ensures r.Open? <==> path == "/"
    ensures r.Protected? && r.role == "company" <==> path == "/company" || path == "/company/complaints"
    ensures r.Protected? && r.role == "station" <==> path == "/station"
    ensures r.Protected? ==> r.role in {"company", "station"}
  {
    if path == "/" then Open(LoginPage)
    else if path == "/company" then Protected("company", CompanyDashboard)
    else if path == "/company/complaints" then Protected("company", AdminComplaints)
    else if path == "/station" then Protected("station", StationDashboard)
    else CatchAll
  }

  /** What rendering `path` does. */
  function Resolve(path: string, token: Option<string>, role: Option<string>): (r: Outcome)
    ensures path == "/" ==> r == Shows(LoginPage)
    ensures RouteFor(path).CatchAll? ==> r == Redirects(if Truthy(token) then Landing(role) else "/")
    ensures RouteFor(path).Protected? ==>
      (r.Shows? <==> Truthy(token) && role == Some(RouteFor(path).role))
    ensures RouteFor(path).Protected? && r.Redirects? ==>
      r.to == (if !Truthy(token) then "/" else if role == Some("company") then "/company" else "/station")
  {
    match RouteFor(path)
    case Open(p) => Shows(p)
    case Protected(required, p) =>
      (match Guard(Some(required), token, role)
       case Children => Shows(p)
       case Navigate(to) => Redirects(to))
    case CatchAll => Redirects(if Truthy(token) then Landing(role) else "/")
  }

  /** The page finally shown after following at most `hops` redirects, or
      None if the router is still redirecting. */
  function Follow(path: string, token: Option<string>, role: Option<string>, hops: nat): Option<Page>
    decreases hops
  {
    match Resolve(path, token, role)
    case Shows(p) => Some(p)
    case Redirects(to) => if hops == 0 then None else Follow(to, token, role, hops - 1)
  }

  /** Only the presence of a token matters to the guard, not its value, and
      without one the role is irrelevant. */
  lemma GuardTokenPresence(required: Option<string>, t1: Option<string>, t2: Option<string>,
                           r1: Option<string>, r2: Option<string>)
    ensures Truthy(t1) == Truthy(t2) ==> Guard(required, t1, r1) == Guard(required, t2, r1)
    ensures !Truthy(t1) ==> Guard(required, t1, r1) == Guard(required, t1, r2)
  {
  }

  /** The landing page of a known role is guarded by that very role, so it
      renders. */
  lemma LandingRenders(token: Option<string>, role: Option<string>)
    requires Truthy(token)
    requires role == Some("company") || role == Some("station")
    ensures Resolve(Landing(role), token, role).Shows?
  {
  }

  /** No redirect loop for the two known roles: from any path, with a token,
      the router settles after at most one redirect, on a page whose guard
      (if any) is the user's own role. */
  lemma KnownRoleSettles(path: string, token: Option<string>, role: Option<string>)
    requires Truthy(token)
    requires role == Some("company") || role == Some("station")
    ensures Follow(path, token, role, 1).Some?
    ensures var p := Follow(path, token, role, 1).value;
      p == LoginPage || (p == StationDashboard <==> role == Some("station"))
  {
    match Resolve(path, token, role)
    case Shows(p) =>
    case Redirects(to) =>
      assert to == Landing(role);
      LandingRenders(token, role);
  }

  /** Without a token every path ends on the login page after at most one
      redirect. */
  lemma NoTokenSettles(path: string, token: Option<string>, role: Option<string>)
    requires !Truthy(token)
    ensures Follow(path, token, role, 1) == Some(LoginPage)
  {
  }

  /** With a token and a role that is neither "company" nor "station", the
      guard of "/station" redirects to "/station" itself, however many
      redirects are followed. */
  lemma {:induction false} UnknownRoleLoops(token: Option<string>, role: Option<string>, hops: nat)
    requires Truthy(token)
    requires role != Some("company") && role != Some("station")
    ensures Resolve("/station", token, role) == Redirects("/station")
    ensures Follow("/station", token, role, hops).None?
    ensures Follow("/company", token, role, hops + 1).None?
  {
    assert Resolve("/station", token, role) == Redirects("/station");
    assert Resolve("/company", token, role) == Redirects("/station");
    if hops > 0 {
      UnknownRoleLoops(token, role, hops - 1);
    }
  }

  /** The same holder reaches the login page from any unmatched path: the
      catch-all sends an unknown role to "/". */
  lemma UnknownRoleCatchAll(path: string, token: Option<string>, role: Option<string>)
    requires Truthy(token)
    requires role != Some("company") && role != Some("station")
    requires RouteFor(path).CatchAll?
    ensures Resolve(path, token, role) == Redirects("/")
    ensures Follow(path, token, role, 1) == Some(LoginPage)
  {
  }
}

=== FILE: seqs.dfy ===
/** Searching a sequence front to back, as `Array.prototype.find`,
    `findIndex` and `some` do. */
module Seqs {
  import opened Wrappers

  /** The index of the first element satisfying `p`, or None (`-1`). */
  function FindIndex<T>(xs: seq<T>, p: T -> bool): (r: Option<nat>)
    ensures r.Some? ==> r.value < |xs| && p(xs[r.value])
    ensures r.Some? ==> forall j | 0 <= j < r.value :: !p(xs[j])
    ensures r.None? <==> forall j | 0 <= j < |xs| :: !p(xs[j])
  {
    if |xs| == 0 then None
    else if p(xs[0]) then Some(0)
    else
      match FindIndex(xs[1..], p)
      case None => None
      case Some(i) => Some(i + 1)
  }

  /** `xs.some(p)`. */
  predicate Any<T>(xs: seq<T>, p: T -> bool) {
    FindIndex(xs, p).Some?
  }
}

=== FILE: server.dfy ===
/** The file-backed backend (backend/server.js): the data document, its
    seeding with the two demo accounts, demo-token login, and the complaint
    endpoints GET/POST/PATCH/DELETE /api/complaints. Each handler is a pure
    function from the document it reads (plus the request and the clock
    values it would have taken from `Date.now()` and `new Date()`) to the
    document it writes and the reply it sends. */
module ComplaintServer {
  import opened Wrappers
  import opened JsText
  import opened Seqs
  import opened Records

  /** The data.json document, a JSON object of which only `users` and
      `complaints` are kept. A hand-edited file may lack either array. */
  datatype Store = Store(users: Option<seq<User>>, complaints: Option<seq<Complaint>>)

  /** `data.users || []` */
  function UsersOf(s: Store): seq<User> {
    s.users.GetOr([])
  }

  /** `data.complaints || []` */
  function ComplaintsOf(s: Store): seq<Complaint> {
    s.complaints.GetOr([])
  }

  datatype Body =
    | ErrorBody(error: string)
    | LoginBody(token: string, role: string, username: string)
    | ComplaintBody(complaint: Complaint)
    | ListBody(complaints: seq<Complaint>)
    | SuccessBody

  /** What a handler does: send a JSON reply, or throw before sending one. */
  datatype Reply = Reply(status: int, body: Body) | Threw(error: string)

  /** `readData`: the parsed document, or two empty arrays when the file
      cannot be read or parsed (None). */
  function ReadData(file: Option<Store>): (s: Store)
    ensures file.None? ==> s.users == Some([]) && s.complaints == Some([])
    ensures file.Some? ==> s == file.value
  {
    match file
    case None => Store(Some([]), Some([]))
    case Some(doc) => doc
  }

  // ---------------------------------------------------------------- seeding

  const StationUsername := "stationUser"
  const CompanyUsername := "companyAdmin"

  function StationDemo(id: int): User {
    User(id, StationUsername, "5678", "station", None)
  }

  function CompanyDemo(id: int): User {
    User(id, CompanyUsername, "1234", "company", None)
  }

  predicate HasUsername(users: seq<User>, name: string) {
    Any(users, (u: User) => u.username == name)
  }

  /** Whether data.json exists, and if it does, what `readData` parses from it. */
  datatype DataFile = Missing | Present(parsed: Option<Store>)

  /** The users `ensureDataFile` appends to an existing list: the station demo
      account if no user is called "stationUser", then the company demo
      account if none is called "companyAdmin". `now` is `Date.now()`. */
  function MissingDemoUsers(users: seq<User>, now: int): (r: seq<User>)
    ensures StationDemo(now + 1) in r <==> !HasUsername(users, StationUsername)
    ensures CompanyDemo(now + 2) in r <==> !HasUsername(users, CompanyUsername)
    ensures forall u | u in r :: u == StationDemo(now + 1) || u == CompanyDemo(now + 2)
    ensures |r| == (if HasUsername(users, StationUsername) then 0 else 1)
                 + (if HasUsername(users, CompanyUsername) then 0 else 1)
    ensures !HasUsername(users, StationUsername) ==> r[0] == StationDemo(now + 1)
  {
    (if HasUsername(users, StationUsername) then [] else [StationDemo(now + 1)])
    + (if HasUsername(users, CompanyUsername) then [] else [CompanyDemo(now + 2)])
  }

  /** `ensureDataFile`: the document it writes, or None when it writes
      nothing. */
  function EnsureDataFile(file: DataFile, now: int): (written: Option<Store>)
    ensures file.Missing? ==>
      written == Some(Store(Some([StationDemo(1), CompanyDemo(2)]), Some([])))
    ensures file.Present? ==>
      var data := ReadData(file.parsed);
      && (written.None? <==>
            HasUsername(UsersOf(data), StationUsername) && HasUsername(UsersOf(data), CompanyUsername))
      && (written.Some? ==>
            && written.value.complaints == data.complaints
            && written.value.users == Some(UsersOf(data) + MissingDemoUsers(UsersOf(data), now))
            && UsersOf(data) <= written.value.users.value
            && HasUsername(written.value.users.value, StationUsername)
            && HasUsername(written.value.users.value, CompanyUsername))
  {
    match file
    case Missing => Some(Store(Some([StationDemo(1), CompanyDemo(2)]), Some([])))
    case Present(parsed) =>
      var data := ReadData(parsed);
      var users := UsersOf(data);
      if HasUsername(users, StationUsername) && HasUsername(users, CompanyUsername) then None
      else
        var all := users + MissingDemoUsers(users, now);
        AppendKeepsUsername(users, now, StationUsername);
        AppendKeepsUsername(users, now, CompanyUsername);
        Some(data.(users := Some(all)))
  }

  /** After appending the missing demo accounts, both usernames are present. */
  lemma AppendKeepsUsername(users: seq<User>, now: int, name: string)
    requires name == StationUsername || name == CompanyUsername
    ensures HasUsername(users + MissingDemoUsers(users, now), name)
  {
    var p := (u: User) => u.username == name;
    var extra := MissingDemoUsers(users, now);
    var all := users + extra;
    if HasUsername(users, name) {
      var i := FindIndex(users, p).value;
      assert p(all[i]);
    } else if name == StationUsername {
      assert p(all[|users|]);
    } else {
      assert p(all[|all| - 1]);
    }
  }

  /** Seeding is idempotent: once `ensureDataFile` has written the document,
      running it again over that document writes nothing. */
  lemma EnsureDataFileIdempotent(file: DataFile, now: int, later: int)
    requires EnsureDataFile(file, now).Some?
    ensures EnsureDataFile(Present(EnsureDataFile(file, now)), later).None?
  {
    var w := EnsureDataFile(file, now).value;
    if file.Missing? {
      assert w.users.value[0].username == StationUsername;
      assert w.users.value[1].username == CompanyUsername;
    }
  }

  /** A document that already holds both demo usernames is never rewritten,
      whatever else it holds. */
  lemma EnsureDataFileKeepsComplete(doc: Store, now: int)
    requires HasUsername(UsersOf(doc), StationUsername) && HasUsername(UsersOf(doc), CompanyUsername)
    ensures EnsureDataFile(Present(Some(doc)), now).None?
  {
  }

  // ------------------------------------------------------------------ login

  /** The first user whose username and password both equal the request's. */
  function FindCredentials(users: seq<User>, username: string, password: string): (r: Option<nat>)
    ensures r.Some? ==> r.value < |users| && users[r.value].username == username && users[r.value].password == password
    ensures r.Some? ==> forall j | 0 <= j < r.value :: users[j].username != username || users[j].password != password
    ensures r.None? <==> forall j | 0 <= j < |users| :: users[j].username != username || users[j].password != password
  {
    FindIndex(users, (u: User) => u.username == username && u.password == password)
  }

  /** POST /api/login. `now` is the `Date.now()` folded into the token. */
  function Login(s: Store, username: Option<string>, password: Option<string>, now: int): (r: Reply)
    ensures !Truthy(username) || !Truthy(password) ==>
      r == Reply(400, ErrorBody("username & password required"))
    ensures Truthy(username) && Truthy(password) ==>
      (r.Reply? && r.status == 401 <==>
        forall i | 0 <= i < |UsersOf(s)| ::
          UsersOf(s)[i].username != username.value || UsersOf(s)[i].password != password.value)
    ensures r.Reply? && r.status == 200 ==>
      Truthy(username) && Truthy(password) &&
      exists i | 0 <= i < |UsersOf(s)| ::
        && UsersOf(s)[i].username == username.value && UsersOf(s)[i].password == password.value
        && (forall j | 0 <= j < i ::
              UsersOf(s)[j].username != username.value || UsersOf(s)[j].password != password.value)
        && r.body == LoginBody("demo-token-" + IntToString(UsersOf(s)[i].id) + "-" + IntToString(now),
                               UsersOf(s)[i].role, UsersOf(s)[i].username)
    ensures r.Reply? && r.status in {200, 400, 401}
  {
    if !Truthy(username) || !Truthy(password) then
      Reply(400, ErrorBody("username & password required"))
    else
      var users := UsersOf(s);
      match FindCredentials(users, username.value, password.value)
      case None => Reply(401, ErrorBody("Invalid credentials"))
      case Some(i) =>
        var u := users[i];
        Reply(200, LoginBody("demo-token-" + IntToString(u.id) + "-" + IntToString(now), u.role, u.username))
  }

  /** Logging in with the seeded demo credentials gives the demo roles. */
  lemma DemoLogins(now: int, t: int)
    ensures
      var s := EnsureDataFile(Missing, now).value;
      && Login(s, Some("stationUser"), Some("5678"), t).body.role == "station"
      && Login(s, Some("companyAdmin"), Some("1234"), t).body.role == "company"
      && Login(s, Some("companyAdmin"), Some("5678"), t).status == 401
  {
    var users := [StationDemo(1), CompanyDemo(2)];
    assert FindCredentials(users, "stationUser", "5678") == Some(0);
    assert FindCredentials(users, "companyAdmin", "1234") == Some(1) by {
      assert users[0].username != "companyAdmin";
    }
    assert FindCredentials(users, "companyAdmin", "5678").None? by {
      assert users[0].username != "companyAdmin" && users[1].password != "5678";
    }
  }

  // ------------------------------------------------------------- complaints

  /** GET /api/complaints: every stored complaint, newest first. */
  function List(s: Store): (r: Reply)
    ensures r.Reply? && r.status == 200 && r.body.ListBody?
    ensures s.complaints.None? ==> r.body.complaints == []
    ensures s.complaints.Some? ==> r.body.complaints == s.complaints.value
  {
    Reply(200, ListBody(ComplaintsOf(s)))
  }

  /** The record POST /api/complaints creates: status "Submitted", email ""
      when none was sent. `id` is `Date.now()`, `now` the ISO timestamp. */
  function NewComplaint(id: int, name: string, email: Option<string>, issue: string, now: string): Complaint {
    Complaint(id, name, if Truthy(email) then email.value else "", issue, "Submitted", now, None)
  }

  /** POST /api/complaints as written: a document without a `complaints`
      array makes `data.complaints.unshift` throw, so nothing is written and
      no reply is sent. */
  function CreateAsWritten(s: Store, name: Option<string>, email: Option<string>, issue: Option<string>,
                           id: int, now: string): (r: (Store, Reply))
    ensures !Truthy(name) || !Truthy(issue) ==> r == (s, Reply(400, ErrorBody("name & issue required")))
    ensures Truthy(name) && Truthy(issue) && s.complaints.None? ==> r.0 == s && r.1.Threw?
    ensures Truthy(name) && Truthy(issue) && s.complaints.Some? ==>
      && r.1 == Reply(201, ComplaintBody(NewComplaint(id, name.value, email, issue.value, now)))
      && r.0 == s.(complaints := Some([r.1.body.complaint] + s.complaints.value))
  {
    if !Truthy(name) || !Truthy(issue) then
      (s, Reply(400, ErrorBody("name & issue required")))
    else if s.complaints.None? then
      (s, Threw("TypeError: Cannot read properties of undefined (reading 'unshift')"))
    else
      var c := NewComplaint(id, name.value, email, issue.value, now);
      (s.(complaints := Some([c] + s.complaints.value)), Reply(201, ComplaintBody(c)))
  }

  /** The failing input: a document with users but no `complaints` key. The
      other complaint handlers read it as an empty list; creation throws. */
  lemma CreateAsWrittenThrows(now: string)
    ensures
      var doc := Store(Some([StationDemo(1)]), None);
      && CreateAsWritten(doc, Some("Asha"), None, Some("Charger offline"), 7, now).1.Threw?
      && List(doc) == Reply(200, ListBody([]))
  {
  }

  /** POST /api/complaints, reading a missing `complaints` array as empty like
      the other handlers do. Without `name` or `issue` it answers 400 and
      changes nothing; otherwise the new record is put in front of the
      existing complaints, which keep their order. */
  function Create(s: Store, name: Option<string>, email: Option<string>, issue: Option<string>,
                  id: int, now: string): (r: (Store, Reply))
    ensures !Truthy(name) || !Truthy(issue) ==>
      r.0 == s && r.1 == Reply(400, ErrorBody("name & issue required"))
    ensures Truthy(name) && Truthy(issue) ==>
      && r.1.Reply? && r.1.status == 201 && r.1.body.ComplaintBody?
      && var c := r.1.body.complaint;
      && c.id == id && c.name == name.value && c.issue == issue.value
      && c.status == "Submitted" && c.createdAt == now && c.updatedAt.None?
      && (c.email == if Truthy(email) then email.value else "")
      && r.0.users == s.users
      && ComplaintsOf(r.0) == [c] + ComplaintsOf(s)
      && |ComplaintsOf(r.0)| == |ComplaintsOf(s)| + 1
    ensures s.complaints.Some? ==> r == CreateAsWritten(s, name, email, issue, id, now)
  {
    if !Truthy(name) || !Truthy(issue) then
      (s, Reply(400, ErrorBody("name & issue required")))
    else
      var c := NewComplaint(id, name.value, email, issue.value, now);
      (s.(complaints := Some([c] + ComplaintsOf(s))), Reply(201, ComplaintBody(c)))
  }

  /** `Number(c.id) === Number(param)`: the route parameter is parsed; one
      that is not a number matches nothing. */
  predicate IdMatches(c: Complaint, param: string) {
    ParseNumber(param) == Some(c.id)
  }

  /** `findIndex((c) => Number(c.id) === Number(req.params.id))`. */
  function FindById(cs: seq<Complaint>, param: string): (r: Option<nat>)
    ensures r.Some? ==> r.value < |cs| && IdMatches(cs[r.value], param)
    ensures r.Some? ==> forall j | 0 <= j < r.value :: !IdMatches(cs[j], param)
    ensures r.None? <==> forall j | 0 <= j < |cs| :: !IdMatches(cs[j], param)
  {
    FindIndex(cs, (c: Complaint) => IdMatches(c, param))
  }

  /** The record PATCH writes: the status replaced only when a truthy one is
      sent, `updated_at` always refreshed. */
  function Patched(c: Complaint, status: Option<string>, now: string): Complaint {
    c.(status := if Truthy(status) then status.value else c.status, updatedAt := Some(now))
  }

  /** PATCH /api/complaints/:id. */
  function Patch(s: Store, param: string, status: Option<string>, now: string): (r: (Store, Reply))
    ensures
      var cs := ComplaintsOf(s);
      (forall i | 0 <= i < |cs| :: !IdMatches(cs[i], param)) <==>
        r.0 == s && r.1 == Reply(404, ErrorBody("Complaint not found"))
    ensures r.1.Reply? && r.1.status == 200 ==>
      var cs := ComplaintsOf(s);
      exists i | 0 <= i < |cs| ::
        && IdMatches(cs[i], param)
        && (forall j | 0 <= j < i :: !IdMatches(cs[j], param))
        && ComplaintsOf(r.0) == cs[i := Patched(cs[i], status, now)]
        && r.1.body == ComplaintBody(Patched(cs[i], status, now))
    ensures r.0.users == s.users
    ensures r.1.Reply? && r.1.status in {200, 404}
  {
    var cs := ComplaintsOf(s);
    match FindById(cs, param)
    case None => (s, Reply(404, ErrorBody("Complaint not found")))
    case Some(i) =>
      var c := Patched(cs[i], status, now);
      (s.(complaints := Some(cs[i := c])), Reply(200, ComplaintBody(c)))
  }

  /** A successful patch touches one record, and in it only `status` (and
      that only for a truthy status) and `updated_at`. */
  lemma PatchFrame(s: Store, param: string, status: Option<string>, now: string)
    requires Patch(s, param, status, now).1.status == 200
    ensures
      var cs, cs' := ComplaintsOf(s), ComplaintsOf(Patch(s, param, status, now).0);
      && |cs'| == |cs|
      && (exists i | 0 <= i < |cs| ::
            && (forall j | 0 <= j < |cs| && j != i :: cs'[j] == cs[j])
            && cs'[i].id == cs[i].id && cs'[i].name == cs[i].name && cs'[i].email == cs[i].email
            && cs'[i].issue == cs[i].issue && cs'[i].createdAt == cs[i].createdAt
            && cs'[i].updatedAt == Some(now)
            && cs'[i].status == (if Truthy(status) then status.value else cs[i].status))
  {
  }

  /** DELETE /api/complaints/:id: drops every complaint whose id equals the
      parsed parameter and always reports success. */
  function Delete(s: Store, param: string): (r: (Store, Reply))
    ensures r.1 == Reply(200, SuccessBody)
    ensures r.0.users == s.users
    ensures forall c :: c in ComplaintsOf(r.0) <==> c in ComplaintsOf(s) && !IdMatches(c, param)
  {
    var cs := ComplaintsOf(s);
    match ParseNumber(param)
    case None => (s.(complaints := Some(cs)), Reply(200, SuccessBody))
    case Some(id) => (s.(complaints := Some(WithoutId(cs, id))), Reply(200, SuccessBody))
  }

  /** Deleting twice leaves the same document as deleting once. */
  lemma DeleteIdempotent(s: Store, param: string)
    ensures Delete(Delete(s, param).0, param) == Delete(s, param)
  {
    if ParseNumber(param).Some? {
      WithoutIdIdempotent(ComplaintsOf(s), ParseNumber(param).value);
    }
  }

  /** Deleting an id nobody has changes no complaint. */
  lemma DeleteAbsent(s: Store, param: string)
    requires forall i | 0 <= i < |ComplaintsOf(s)| :: !IdMatches(ComplaintsOf(s)[i], param)
    ensures ComplaintsOf(Delete(s, param).0) == ComplaintsOf(s)
  {
    if ParseNumber(param).Some? {
      WithoutIdAbsent(ComplaintsOf(s), ParseNumber(param).value);
    }
  }

  /** Deletion keeps the surviving complaints in order: deleting from a
      concatenation deletes from each part. */
  lemma DeleteKeepsOrder(a: seq<Complaint>, b: seq<Complaint>, users: Option<seq<User>>, param: string)
    ensures
      ComplaintsOf(Delete(Store(users, Some(a + b)), param).0) ==
      ComplaintsOf(Delete(Store(users, Some(a)), param).0) + ComplaintsOf(Delete(Store(users, Some(b)), param).0)
  {
    if ParseNumber(param).Some? {
      WithoutIdAppend(a, b, ParseNumber(param).value);
    }
  }

  /** Create, list, patch the new complaint to "Accepted", list again: the
      list shows the new complaint first with only its status and
      `updated_at` changed, and every older complaint as it was. */
  lemma CreatePatchRoundTrip(s: Store, name: string, email: Option<string>, issue: string,
                             id: int, created: string, updated: string)
    requires name != "" && issue != ""
    ensures
      var (s1, r1) := Create(s, Some(name), email, Some(issue), id, created);
      var (s2, r2) := Patch(s1, IntToString(id), Some("Accepted"), updated);
      var c := r1.body.complaint;
      && List(s1).body.complaints[0] == c
      && r2.status == 200
      && List(s2).body.complaints == [c.(status := "Accepted", updatedAt := Some(updated))] + ComplaintsOf(s)
  {
    ParseIntToString(id);
    var (s1, r1) := Create(s, Some(name), email, Some(issue), id, created);
    var c := r1.body.complaint;
    PatchHead(s1, c, ComplaintsOf(s), IntToString(id), Some("Accepted"), updated);
  }

  /** Patching a document whose first complaint carries the id updates that
      complaint and keeps the rest. */
  lemma PatchHead(s: Store, c: Complaint, rest: seq<Complaint>, param: string, status: Option<string>, now: string)
    requires ComplaintsOf(s) == [c] + rest && IdMatches(c, param)
    ensures Patch(s, param, status, now).1.status == 200
    ensures ComplaintsOf(Patch(s, param, status, now).0) == [Patched(c, status, now)] + rest
  {
    var cs := ComplaintsOf(s);
    assert FindById(cs, param) == Some(0);
    assert cs[0 := Patched(c, status, now)] == [Patched(c, status, now)] + rest;
  }
}

=== FILE: stationdash.dfy ===
/** The station user's dashboard (frontend/src/pages/StationDashboard.js):
    the optimistic complaint form, the text shown for each complaint, and
    the station 102 report. */
module StationDashboard {
  import opened Wrappers
  import opened Records
  import opened JsText
  import opened Seqs
  import opened JsValues
  import opened CsvReport
  import ComplaintServer

  /** The three inputs of the contact form. */
  datatype Form = Form(name: string, email: string, issue: string)

  const EmptyForm := Form("", "", "")

  datatype DashState = DashState(complaints: seq<Complaint>, form: Form)

  /** The first half of `handleFormSubmit`, up to the request: nothing
      happens without a name and an issue; otherwise a temporary record
      (id `Date.now()`, status "Submitting...") goes to the head of the list
      and the form is cleared. The temporary record is returned too. */
  function Submit(s: DashState, now: int, nowIso: string): (r: (DashState, Option<Complaint>))
    ensures s.form.name == "" || s.form.issue == "" ==> r == (s, None)
    ensures s.form.name != "" && s.form.issue != "" ==>
      && r.1.Some?
      && r.1.value == Complaint(now, s.form.name, s.form.email, s.form.issue, "Submitting...", nowIso, None)
      && r.0.complaints == [r.1.value] + s.complaints
      && r.0.form == EmptyForm
  {
    if s.form.name == "" || s.form.issue == "" then (s, None)
    else
      var temp := Complaint(now, s.form.name, s.form.email, s.form.issue, "Submitting...", nowIso, None);
      (DashState([temp] + s.complaints, EmptyForm), Some(temp))
  }

  /** The server's record goes to the head; every entry carrying the
      temporary id is dropped; the rest keep their order. */
  function SubmitSucceeded(prev: seq<Complaint>, tempId: int, created: Complaint): (r: seq<Complaint>)
    ensures |r| >= 1 && r[0] == created
    ensures forall c :: c in r[1..] <==> c in prev && c.id != tempId
    ensures |r| <= |prev| + 1
    ensures |r| == 1 + |WithoutId(prev, tempId)|
  {
    [created] + WithoutId(prev, tempId)
  }

  /** Every entry carrying the temporary id is marked "Failed"; nothing else
      changes. */
  function SubmitFailed(prev: seq<Complaint>, tempId: int): (r: seq<Complaint>)
    ensures |r| == |prev|
    ensures forall i | 0 <= i < |prev| && prev[i].id != tempId :: r[i] == prev[i]
    ensures forall i | 0 <= i < |prev| && prev[i].id == tempId :: r[i] == prev[i].(status := "Failed")
  {
    MarkFailed(prev, tempId)
  }

  /** Submit and an answer from the server with nothing in between: if no
      earlier complaint shares the temporary id, the list becomes the
      server's record followed by the old list. */
  lemma SubmitThenSucceed(s: DashState, now: int, nowIso: string, created: Complaint)
    requires s.form.name != "" && s.form.issue != ""
    requires forall i | 0 <= i < |s.complaints| :: s.complaints[i].id != now
    ensures SubmitSucceeded(Submit(s, now, nowIso).0.complaints, now, created) == [created] + s.complaints
  {
    var temp := Submit(s, now, nowIso).1.value;
    WithoutIdAppend([temp], s.complaints, now);
    WithoutIdAbsent(s.complaints, now);
    assert WithoutId([temp], now) == [];
  }

  /** Submit and a failed request: the temporary record stays at the head,
      marked "Failed", in front of the unchanged old list. */
  lemma SubmitThenFail(s: DashState, now: int, nowIso: string)
    requires s.form.name != "" && s.form.issue != ""
    requires forall i | 0 <= i < |s.complaints| :: s.complaints[i].id != now
    ensures
      var (s1, temp) := Submit(s, now, nowIso);
      SubmitFailed(s1.complaints, now) == [temp.value.(status := "Failed")] + s.complaints
  {
  }

  /** The request carries the temporary record's name, email and issue; the
      file-backed backend answers 201 with a record holding the same three
      and the status "Submitted". The handler as written does so whenever
      the document has a `complaints` array, and otherwise throws. */
  lemma SubmitReachesServer(s: DashState, now: int, nowIso: string, store: ComplaintServer.Store,
                            id: int, created: string)
    requires s.form.name != "" && s.form.issue != ""
    ensures
      var temp := Submit(s, now, nowIso).1.value;
      var (_, reply) := ComplaintServer.Create(store, Some(temp.name), Some(temp.email), Some(temp.issue), id, created);
      var (_, asWritten) := ComplaintServer.CreateAsWritten(store, Some(temp.name), Some(temp.email), Some(temp.issue), id, created);
      && reply.status == 201
      && reply.body.complaint.name == temp.name
      && reply.body.complaint.email == temp.email
      && reply.body.complaint.issue == temp.issue
      && reply.body.complaint.status == "Submitted"
      && (store.complaints.Some? <==> asWritten == reply)
      && (store.complaints.None? <==> asWritten.Threw?)
  {
  }

  /** The issue text in the list: at most 60 characters, then "...". */
  function Truncate(issue: string): (r: string)
    ensures |issue| <= 60 ==> r == issue
    ensures |issue| > 60 ==> |r| == 63 && issue[..60] <= r && r[60..] == "..."
  {
    if |issue| > 60 then issue[..60] + "..." else issue
  }

  /** The CSS class of a status badge: "status-", then the status (or "")
      lower-cased with every white-space character turned into "-". */
  function StatusClass(status: Option<string>): (r: string)
    ensures |r| == 7 + |status.GetOr("")|
    ensures "status-" <= r
    ensures forall i | 7 <= i < |r| :: !IsSpace(r[i]) && !('A' <= r[i] <= 'Z')
    ensures forall i | 7 <= i < |r| :: LowerChar(status.GetOr("")[i - 7]) == r[i] || IsSpace(status.GetOr("")[i - 7])
    ensures forall i | 7 <= i < |r| ::
      r[i] == if IsSpace(status.GetOr("")[i - 7]) then '-' else LowerChar(status.GetOr("")[i - 7])
  {
    var lower := ToLower(status.GetOr(""));
    ToLowerIdempotent(status.GetOr(""));
    "status-" + ReplaceSpaces(lower, '-')
  }

  /** The class character by character. */
  lemma StatusClassChars(status: string, suffix: string)
    requires |suffix| == |status|
    requires forall i | 0 <= i < |status| :: suffix[i] == (if IsSpace(status[i]) then '-' else LowerChar(status[i]))
    ensures StatusClass(Some(status)) == "status-" + suffix
  {
  }

  /** The class of the one status with a space in it. */
  lemma InProgressClass()
    ensures StatusClass(Some("In Progress")) == "status-in-progress"
  {
    StatusClassChars("In Progress", "in-progress");
  }

  // ------------------------------------------------------------ the report

  const StationId := 102
  const ReportError := "Could not load Station 102 report. Check files in public/static/"

  /** `summaries.find((s) => Number(s.station_id) === Number(stationId))`;
      a `NaN` id equals nothing. */
  function FindSummary(summaries: seq<Record>, stationId: int): (r: Option<Record>)
    ensures r.Some? <==> exists i | 0 <= i < |summaries| :: ToNumber(Get(summaries[i], "station_id")) == Some(stationId)
    ensures r.Some? ==> exists i | 0 <= i < |summaries| ::
      && r.value == summaries[i]
      && ToNumber(Get(summaries[i], "station_id")) == Some(stationId)
      && forall j | 0 <= j < i :: ToNumber(Get(summaries[j], "station_id")) != Some(stationId)
  {
    match FindIndex(summaries, (s: Record) => ToNumber(Get(s, "station_id")) == Some(stationId))
    case None => None
    case Some(i) => Some(summaries[i])
  }

  datatype ReportState = ReportState(summary: Option<Record>, chart: Option<Chart>, extremes: Option<Extremes>,
                                     error: string, loading: bool)

  /** `loadStationReport`: `summaries` is None when stations_summary.json
      could not be fetched, `csv` None when the CSV could not. A summary
      found before the CSV fails stays on screen. */
  method LoadStationReport(summaries: Option<seq<Record>>, csv: Option<string>) returns (r: ReportState)
    ensures !r.loading
    ensures summaries.None? ==> r == ReportState(None, None, None, ReportError, false)
    ensures summaries.Some? ==> r.summary == FindSummary(summaries.value, StationId)
    ensures summaries.Some? && csv.None? ==> r.chart.None? && r.error == ReportError
    ensures summaries.Some? && csv.Some? ==>
      && r.error == "" && r.chart.Some? && r.extremes.Some?
      && Charted(SeriesOf(csv.value), 3, 7, r.chart.value, r.extremes.value)
  {
    if summaries.None? {
      return ReportState(None, None, None, ReportError, false);
    }
    var summary := FindSummary(summaries.value, StationId);
    if csv.None? {
      return ReportState(summary, None, None, ReportError, false);
    }
    var chart, ext := BuildChart(SeriesOf(csv.value), 3, 7);
    r := ReportState(summary, Some(chart), Some(ext), "", false);
  }
}

=== FILE: stationlist.dfy ===
/** The station list (frontend/src/pages/StationListPage.js): where the
    stations come from, the search box, the details modal with its
    per-station chart, and the "show on map" button. Stations are JSON
    records. */
module StationList {
  import opened Wrappers
  import opened JsText
  import opened Seqs
  import opened JsValues
  import opened CsvReport
  import CompanyDashboard

  /** The five stations shown when stations_summary.json cannot be loaded.
      Coordinates are in units of 1e-4 degree. */
  function SampleStation(id: int, voltage: int, current: int, sessions: int, revenue: int,
                         lat: int, lng: int): Record {
    map["station_id" := JNum(id), "name" := JStr("Station " + IntToString(id)),
        "avg_voltage" := JNum(voltage), "avg_current" := JNum(current),
        "avg_sessions" := JNum(sessions), "total_revenue_inr" := JNum(revenue),
        "rows" := JNum(30), "lat" := JNum(lat), "lng" := JNum(lng)]
  }

  const SampleStations: seq<Record> := [
    SampleStation(101, 225, 22, 56, 500000, 185204, 738567),
    SampleStation(102, 228, 21, 55, 497000, 190760, 728777),
    SampleStation(103, 224, 20, 59, 533000, 173850, 784867),
    SampleStation(104, 227, 21, 57, 512000, 129716, 775946),
    SampleStation(105, 226, 20, 57, 517000, 287041, 771025)
  ]

  const FetchError := "Could not load station summaries. Make sure stations_summary.json is in public/static/"

  /** The `stations` prop: absent or null, some value that is not an array,
      or an array. */
  datatype Prop = NoProp | NotArrayProp | ArrayProp(items: seq<Record>)

  /** How fetching stations_summary.json ended: failed (including a non-ok
      status or a body that is not JSON), `null`, or an array. */
  datatype Fetched = FetchFailed | FetchedNull | FetchedArray(items: seq<Record>)

  /** The station list and the error banner after the loading effect. */
  function Source(prop: Prop, fetched: Fetched): (r: (seq<Record>, string))
    ensures prop.ArrayProp? && |prop.items| > 0 ==> r == (prop.items, "")
    ensures !(prop.ArrayProp? && |prop.items| > 0) ==>
      && (fetched.FetchFailed? ==> r == (SampleStations, FetchError))
      && (fetched.FetchedNull? ==> r == ([], ""))
      && (fetched.FetchedArray? ==> r == (fetched.items, ""))
    ensures r.1 != "" ==> |r.0| == 5
  {
    if prop.ArrayProp? && |prop.items| > 0 then (prop.items, "")
    else
      match fetched
      case FetchFailed => (SampleStations, FetchError)
      case FetchedNull => ([], "")
      case FetchedArray(items) => (items, "")
  }

  /** Embedded in the company dashboard, the list receives the dashboard's
      `stations` as its prop. Before they load that prop is the empty
      array and the list fetches for itself, as without a prop; once they
      load it is never empty, and since the effect runs again on a new prop
      the list then shows exactly the dashboard's stations, with no error
      banner. */
  lemma ListUsesDashboardStations(summaries: CompanyDashboard.Summaries, fetched: Fetched)
    ensures Source(ArrayProp([]), fetched) == Source(NoProp, fetched)
    ensures var st := CompanyDashboard.LoadStations(summaries);
      Source(ArrayProp(st), fetched) == (st, "")
  {
  }

  // ---------------------------------------------------------------- search

  /** `s.name.toLowerCase().includes(search.toLowerCase())`, or None when the
      name is not a string and `toLowerCase` throws. */
  function NameMatches(s: Record, query: string): Option<bool> {
    match Get(s, "name")
    case Some(JStr(name)) => Some(Contains(ToLower(name), ToLower(query)))
    case _ => None
  }

  /** The stations whose name holds the query, ignoring ASCII case. */
  function Keep(stations: seq<Record>, query: string): (r: seq<Record>)
    ensures |r| <= |stations|
    ensures forall s :: s in r <==> s in stations && NameMatches(s, query) == Some(true)
  {
    if |stations| == 0 then []
    else
      (if NameMatches(stations[0], query) == Some(true) then [stations[0]] else []) + Keep(stations[1..], query)
  }

  /** The filtered list, or None when some station's name is not a string:
      `toLowerCase` throws there and the page fails to render. */
  function Search(stations: seq<Record>, query: string): (r: Option<seq<Record>>)
    ensures r.None? <==> exists i | 0 <= i < |stations| :: NameMatches(stations[i], query).None?
    ensures r.Some? ==> r.value == Keep(stations, query)
  {
    if forall i | 0 <= i < |stations| :: NameMatches(stations[i], query).Some? then Some(Keep(stations, query))
    else None
  }

  /** The empty query substring is everywhere. */
  lemma ContainsEmpty(s: string)
    ensures Contains(s, "")
  {
    assert OccursAt(s, "", 0);
  }

  /** An empty search keeps every station, in order, as long as every name
      is a string. */
  lemma {:induction false} KeepEmptyQuery(stations: seq<Record>)
    requires forall i | 0 <= i < |stations| :: Get(stations[i], "name").Some? && Get(stations[i], "name").value.JStr?
    ensures Keep(stations, "") == stations
  {
    if |stations| > 0 {
      ContainsEmpty(ToLower(Get(stations[0], "name").value.s));
      assert ToLower("") == "";
      KeepEmptyQuery(stations[1..]);
      assert [stations[0]] + stations[1..] == stations;
    }
  }

  lemma SearchEmptyKeepsAll(stations: seq<Record>)
    requires forall i | 0 <= i < |stations| :: Get(stations[i], "name").Some? && Get(stations[i], "name").value.JStr?
    ensures Search(stations, "") == Some(stations)
  {
    KeepEmptyQuery(stations);
  }

  /** Filtering a concatenation filters each part: the kept stations stay
      in their original order. */
  lemma {:induction false} KeepAppend(a: seq<Record>, b: seq<Record>, query: string)
    ensures Keep(a + b, query) == Keep(a, query) + Keep(b, query)
  {
    if |a| == 0 {
      assert a + b == b;
    } else {
      assert (a + b)[0] == a[0];
      assert (a + b)[1..] == a[1..] + b;
      KeepAppend(a[1..], b, query);
    }
  }

  // ----------------------------------------------------------- the details

  /** `String(s.station_id) === String(stationId)`. */
  predicate SameId(s: Record, stationId: Option<Json>) {
    ToText(Get(s, "station_id")) == ToText(stationId)
  }

  /** `stations.find(...) || null`. */
  function Lookup(stations: seq<Record>, stationId: Option<Json>): (r: Option<Record>)
    ensures r.None? <==> forall i | 0 <= i < |stations| :: !SameId(stations[i], stationId)
    ensures r.Some? ==> exists i | 0 <= i < |stations| ::
      r.value == stations[i] && SameId(stations[i], stationId)
      && forall j | 0 <= j < i :: !SameId(stations[j], stationId)
  {
    var text := ToText(stationId);
    match FindIndex(stations, (s: Record) => ToText(Get(s, "station_id")) == text)
    case None => None
    case Some(i) => Some(stations[i])
  }

  /** Opening a card's details finds that station, or an earlier one with an
      id of the same text: `101` and `"101"` are the same station here. */
  lemma LookupOwnId(stations: seq<Record>, k: int)
    requires 0 <= k < |stations|
    ensures Lookup(stations, Get(stations[k], "station_id")).Some?
    ensures ToText(Get(Lookup(stations, Get(stations[k], "station_id")).value, "station_id")) ==
            ToText(Get(stations[k], "station_id"))
  {
    assert SameId(stations[k], Get(stations[k], "station_id"));
  }

  /** The number 101 and the text "101" select the same station. */
  lemma NumberAndTextSameStation(stations: seq<Record>, n: int)
    ensures Lookup(stations, Some(JNum(n))) == Lookup(stations, Some(JStr(IntToString(n))))
  {
    assert ToText(Some(JNum(n))) == ToText(Some(JStr(IntToString(n))));
  }

  /** The modal and its contents. */
  datatype Modal = Modal(open: bool, selectedId: Option<Json>, selected: Option<Record>,
                         chart: Option<Chart>, extremes: Option<Extremes>,
                         chartError: string, chartLoading: bool)

  const Closed := Modal(false, None, None, None, None, "", false)

  const ChartError := "Could not load station CSV. Make sure ev_station_<id>_daily_data.csv is in public/static/"

  /** `openDetails`, through to the end of the CSV load; `csv` is None when
      the file could not be fetched. */
  method OpenDetails(stations: seq<Record>, stationId: Option<Json>, csv: Option<string>) returns (m: Modal)
    ensures m.open && m.selectedId == stationId && !m.chartLoading
    ensures m.selected == Lookup(stations, stationId)
    ensures csv.None? ==> m.chart.None? && m.extremes.None? && m.chartError == ChartError
    ensures csv.Some? ==>
      && m.chartError == "" && m.chart.Some? && m.extremes.Some?
      && Charted(SeriesOf(csv.value), 2, 6, m.chart.value, m.extremes.value)
  {
    var selected := Lookup(stations, stationId);
    if csv.None? {
      return Modal(true, stationId, selected, None, None, ChartError, false);
    }
    var chart, ext := DetailsChart(csv.value);
    m := Modal(true, stationId, selected, Some(chart), Some(ext), "", false);
  }

  /** The modal's chart: the list page's reading of the CSV, drawn with
      radius 2, and 6 at the extremes. It plots the same series as the
      station dashboard. */
  method DetailsChart(text: string) returns (chart: Chart, ext: Extremes)
    ensures Charted(SeriesOf(text), 2, 6, chart, ext)
  {
    var series := ListSeriesOf(text);
    ListSeriesMatchesDashboard(text);
    chart, ext := BuildChart(series, 2, 6);
  }

  /** `closeModal`: everything the modal showed is cleared (the loading
      flag is left alone) and `onOpenHandled` is called when given. */
  function CloseModal(m: Modal, hasOnOpenHandled: bool): (r: (Modal, bool))
    ensures r.0 == Closed.(chartLoading := m.chartLoading)
    ensures r.1 == hasOnOpenHandled
  {
    (Modal(false, None, None, None, None, "", m.chartLoading), hasOnOpenHandled)
  }

  /** Closing is idempotent, and closing the modal after opening it returns
      to the initial closed state whatever was opened. */
  lemma CloseAfterOpen(m: Modal, other: Modal, h: bool)
    requires !m.chartLoading && !other.chartLoading
    ensures CloseModal(m, h).0 == CloseModal(other, h).0 == Closed
    ensures CloseModal(CloseModal(m, h).0, h) == CloseModal(m, h)
  {
  }

  /** What "Show on map" does. */
  datatype MapAction = SelectStation(station: Record) | OpenDetailsOf(stationId: Option<Json>)

  /** Hands the station to `onSelectStation` when that is given, otherwise
      opens its details. */
  function ShowOnMap(station: Record, hasOnSelectStation: bool): (r: MapAction)
    ensures hasOnSelectStation <==> r.SelectStation?
    ensures r.SelectStation? ==> r.station == station
    ensures r.OpenDetailsOf? ==> r.stationId == Get(station, "station_id")
  {
    if hasOnSelectStation then SelectStation(station) else OpenDetailsOf(Get(station, "station_id"))
  }
}

=== FILE: utf8.dfy ===
/** UTF-8 as Node's `Buffer.from(text)` and `buffer.toString("utf8")` use
    it: each Unicode scalar value becomes one to four octets. The decoder
    accepts only well-formed input (no overlong forms, no surrogates, nothing
    above U+10FFFF) and answers None otherwise. */
module Utf8 {
  import opened Wrappers
  import opened Bytes

  /** A continuation octet, 10xxxxxx. */
  predicate IsCont(b: Byte) {
    0x80 <= b < 0xC0
  }

  /** The octets of one scalar value. */
  function EncodeChar(c: char): (r: seq<Byte>)
    ensures 1 <= |r| <= 4
    ensures forall i | 1 <= i < |r| :: IsCont(r[i])
    ensures r[0] < 0x80 || 0xC2 <= r[0] <= 0xF4
  {
    var cp := c as int;
    if cp < 0x80 then [cp]
    else if cp < 0x800 then [0xC0 + cp / 64, 0x80 + cp % 64]
    else if cp < 0x10000 then [0xE0 + cp / 4096, 0x80 + (cp / 64) % 64, 0x80 + cp % 64]
    else [0xF0 + cp / 262144, 0x80 + (cp / 4096) % 64, 0x80 + (cp / 64) % 64, 0x80 + cp % 64]
  }

  /** The octets of a whole string. */
  function Encode(s: string): seq<Byte> {
    if |s| == 0 then [] else EncodeChar(s[0]) + Encode(s[1..])
  }

  /** Decodes the scalar value at the front of `bs`, with the number of
      octets it takes; the octets consumed are exactly that value's
      encoding, so only the shortest form is accepted. */
  function DecodeChar(bs: seq<Byte>): (r: Option<(char, nat)>)
    requires |bs| > 0
    ensures r.Some? ==> 1 <= r.value.1 <= |bs| && EncodeChar(r.value.0) == bs[..r.value.1]
  {
    var b0: int := bs[0];
    if b0 < 0x80 then
      Some((b0 as char, 1))
    else if 0xC2 <= b0 < 0xE0 && |bs| >= 2 && IsCont(bs[1]) then
      var cp := Value2(b0, bs[1]);
      EncodeValue2(b0, bs[1]);
      Some((cp as char, 2))
    else if 0xE0 <= b0 < 0xF0 && |bs| >= 3 && IsCont(bs[1]) && IsCont(bs[2]) then
      var cp := Value3(b0, bs[1], bs[2]);
      if cp < 0x800 || (0xD800 <= cp < 0xE000) then None
      else
        EncodeValue3(b0, bs[1], bs[2]);
        Some((cp as char, 3))
    else if 0xF0 <= b0 < 0xF5 && |bs| >= 4 && IsCont(bs[1]) && IsCont(bs[2]) && IsCont(bs[3]) then
      var cp := Value4(b0, bs[1], bs[2], bs[3]);
      if cp < 0x10000 || cp >= 0x110000 then None
      else
        EncodeValue4(b0, bs[1], bs[2], bs[3]);
        Some((cp as char, 4))
    else
      None
  }

  /** The scalar value carried by a two-, three- or four-octet form. */
  function Value2(b0: Byte, b1: Byte): int {
    (b0 - 0xC0) * 64 + (b1 - 0x80)
  }

  function Value3(b0: Byte, b1: Byte, b2: Byte): int {
    (b0 - 0xE0) * 4096 + (b1 - 0x80) * 64 + (b2 - 0x80)
  }

  function Value4(b0: Byte, b1: Byte, b2: Byte, b3: Byte): int {
    (b0 - 0xF0) * 262144 + (b1 - 0x80) * 4096 + (b2 - 0x80) * 64 + (b3 - 0x80)
  }

  lemma EncodeValue2(b0: Byte, b1: Byte)
    requires 0xC2 <= b0 < 0xE0 && IsCont(b1)
    ensures 0x80 <= Value2(b0, b1) < 0x800
    ensures EncodeChar(Value2(b0, b1) as char) == [b0, b1]
  {
    var cp := Value2(b0, b1);
    assert cp / 64 == b0 - 0xC0 && cp % 64 == b1 - 0x80;
  }

  lemma EncodeValue3(b0: Byte, b1: Byte, b2: Byte)
    requires 0xE0 <= b0 < 0xF0 && IsCont(b1) && IsCont(b2)
    requires Value3(b0, b1, b2) >= 0x800 && !(0xD800 <= Value3(b0, b1, b2) < 0xE000)
    ensures EncodeChar(Value3(b0, b1, b2) as char) == [b0, b1, b2]
  {
    var cp := Value3(b0, b1, b2);
    assert cp / 64 == (b0 - 0xE0) * 64 + (b1 - 0x80) && cp % 64 == b2 - 0x80;
    assert cp / 4096 == b0 - 0xE0;
  }

  lemma EncodeValue4(b0: Byte, b1: Byte, b2: Byte, b3: Byte)
    requires 0xF0 <= b0 < 0xF5 && IsCont(b1) && IsCont(b2) && IsCont(b3)
    requires 0x10000 <= Value4(b0, b1, b2, b3) < 0x110000
    ensures EncodeChar(Value4(b0, b1, b2, b3) as char) == [b0, b1, b2, b3]
  {
    var cp := Value4(b0, b1, b2, b3);
    var q := (b0 - 0xF0) * 64 + (b1 - 0x80);
    assert cp / 64 == q * 64 + (b2 - 0x80) && cp % 64 == b3 - 0x80;
    assert cp / 4096 == q;
    assert cp / 262144 == b0 - 0xF0;
    assert (cp / 4096) % 64 == b1 - 0x80;
    assert (cp / 64) % 64 == b2 - 0x80;
  }

  /** Decodes a whole octet sequence, or None if any part is malformed. */
  function Decode(bs: seq<Byte>): (r: Option<string>)
    ensures r.Some? ==> Encode(r.value) == bs
    decreases |bs|
  {
    if |bs| == 0 then Some("")
    else match DecodeChar(bs)
      case None => None
      case Some((c, n)) =>
        match Decode(bs[n..])
        case None => None
        case Some(rest) =>
          DecodeStep(bs, c, n, rest);
          Some([c] + rest)
  }

  /** One decoded value in front of a decoded remainder re-encodes to the
      whole input. */
  lemma DecodeStep(bs: seq<Byte>, c: char, n: nat, rest: string)
    requires |bs| > 0 && DecodeChar(bs) == Some((c, n))
    requires n <= |bs| && Encode(rest) == bs[n..]
    ensures Encode([c] + rest) == bs
  {
    EncodeCons(c, rest);
    assert bs == bs[..n] + bs[n..];
  }

  lemma EncodeCons(c: char, rest: string)
    ensures Encode([c] + rest) == EncodeChar(c) + Encode(rest)
  {
    assert ([c] + rest)[1..] == rest;
  }

  /** The decoder reads back exactly the encoding of one scalar value. */
  lemma DecodeEncodeChar(c: char, rest: seq<Byte>)
    ensures DecodeChar(EncodeChar(c) + rest) == Some((c, |EncodeChar(c)|))
  {
    var cp := c as int;
    if cp < 0x80 {
    } else if cp < 0x800 {
      DecodeEncode2(c, rest);
    } else if cp < 0x10000 {
      DecodeEncode3(c, rest);
    } else {
      DecodeEncode4(c, rest);
    }
  }

  lemma DecodeEncode2(c: char, rest: seq<Byte>)
    requires 0x80 <= c as int < 0x800
    ensures DecodeChar(EncodeChar(c) + rest) == Some((c, 2))
  {
    var cp := c as int;
    var e := EncodeChar(c);
    var bs := e + rest;
    assert bs[0] == e[0] && bs[1] == e[1];
    assert Value2(e[0], e[1]) == cp;
  }

  lemma DecodeEncode3(c: char, rest: seq<Byte>)
    requires 0x800 <= c as int < 0x10000
    ensures DecodeChar(EncodeChar(c) + rest) == Some((c, 3))
  {
    var cp := c as int;
    var e := EncodeChar(c);
    var bs := e + rest;
    var hi, mid, lo := cp / 4096, (cp / 64) % 64, cp % 64;
    assert cp / 64 == hi * 64 + mid;
    assert e == [0xE0 + hi, 0x80 + mid, 0x80 + lo];
    assert bs[0] == e[0] && bs[1] == e[1] && bs[2] == e[2];
    assert Value3(e[0], e[1], e[2]) == cp;
  }

  lemma DecodeEncode4(c: char, rest: seq<Byte>)
    requires 0x10000 <= c as int
    ensures DecodeChar(EncodeChar(c) + rest) == Some((c, 4))
  {
    var e := EncodeChar(c);
    var bs := e + rest;
    Digits4(c as int);
    assert bs[0] == e[0] && bs[1] == e[1] && bs[2] == e[2] && bs[3] == e[3];
  }

  /** The four 6-bit-or-less digits of a supplementary code point put back
      together give the code point. */
  lemma Digits4(cp: int)
    requires 0x10000 <= cp < 0x110000
    ensures Value4(0xF0 + cp / 262144, 0x80 + (cp / 4096) % 64, 0x80 + (cp / 64) % 64, 0x80 + cp % 64) == cp
  {
    var top, hi, mid, lo := cp / 262144, (cp / 4096) % 64, (cp / 64) % 64, cp % 64;
    assert cp / 64 == (cp / 4096) * 64 + mid;
    assert cp / 4096 == top * 64 + hi;
  }

  /** Round trip: decoding the encoding of a string gives the string back. */
  lemma {:induction false} DecodeEncode(s: string)
    ensures Decode(Encode(s)) == Some(s)
  {
    if |s| > 0 {
      var e := EncodeChar(s[0]);
      DecodeEncodeChar(s[0], Encode(s[1..]));
      assert (e + Encode(s[1..]))[|e|..] == Encode(s[1..]);
      DecodeEncode(s[1..]);
      assert [s[0]] + s[1..] == s;
    }
  }

  /** Decoding succeeds on `bs` with result `s` exactly when `bs` is the
      encoding of `s`. */
  lemma DecodeIff(bs: seq<Byte>, s: string)
    ensures Decode(bs) == Some(s) <==> Encode(s) == bs
  {
    if Encode(s) == bs {
      DecodeEncode(s);
    }
  }
}

=== FILE: wrappers.dfy ===
/** The optional value used wherever the JavaScript source has `null`,
    `undefined` or `NaN` standing in for "no value". */
module Wrappers {

  datatype Option<+T> = None | Some(value: T) {

    /** Returns the value in Some, or `default` for None. */
    function GetOr(default: T): T {
      match this
      case Some(v) => v
      case None => default
    }
  }
}
